=== FILE: README.md ===
# mcp-lubrication scaffold, modelled in Dafny

The repository is a design-time scaffold for a "friction point" logging
service, plus a small client SDK. The service has a fixed route table. Every
handler answers with a deterministic JSON envelope:

- `GET /health` answers 200.
- `POST /v1/auth/token` and `POST /v1/friction-points` answer 501 with a
  machine-readable NotImplemented envelope. It carries guidance and hints for
  whoever implements the route.
- `GET /v1/friction-points` answers 200 with an empty page.
- `GET /v1/friction-points/:id` answers 404 with a NotFound envelope that
  names the id.
- Any other request gets a generic 404.

The SDK wraps an HTTP client. It holds a base URL and an optional
`Authorization: Bearer` header. It has one method per route, and each method
returns the response whatever its status.

The model has eight modules:

- `Options`: optional values, which stand for JavaScript's `undefined`.
- `Json`: JavaScript values as JSON. It includes property access on objects,
  the truthiness test behind `||`, and the round trip through JSON text
  (`Wire`), which turns NaN and the infinities into `null`.
- `Paths`: splitting a URL path on `/` and joining it back.
- `Http`: the request method and the `(status, body)` response.
- `Service`:
  - the envelopes;
  - the route table as data, matched in registration order (the first entry
    that accepts the method and path answers);
  - `Dispatch`, the whole service as one pure function;
  - `Serve`, which answers a run of requests without keeping state.
- `ServiceLaws`: the route-by-route promises. They cover which requests each
  route accepts, that no two routes overlap, and the exact envelope of each
  route and of the fallback.
- `Sdk`: the client as an immutable record. It has:
  - the constructor and `withToken`;
  - pure builders for the request each method hands to axios;
  - axios's settlement rule (2xx fulfils, anything else rejects with the
    response attached);
  - the methods' `.catch(e => e.response || e)` recovery.
- `EndToEnd`: the SDK's requests delivered to `Dispatch`, each body passing
  through JSON text on the way there and on the way back. It restates the
  SDK test suite for every argument, and the suite's own calls are instances.

Two behaviours of the code are worth knowing:

- The creation route's `received` object uses `body.x || null`. So every
  falsy field becomes `null`, not only a missing one: `""`, `0`, `false` and
  `NaN` all do. The model follows the code.
- The constructor installs a header only for a truthy token. `withToken`
  installs one for any token, so `withToken("")` sends `Bearer ` (with
  nothing after it).

`Number()` of a query string is a parameter of the model, `toNumber`. So is
the way axios renders a number into the query string, `encode`.

## Model

| member | source | states |
|---|---|---|
| `Json.Truthy` | src/index.ts:45-47 | The falsy values are exactly null, false, 0, NaN and the empty string. Every other value is truthy, including every array and object. |
| `Json.FieldWire` | src/index.ts:4 | After the JSON round trip an object has a key exactly when it had it before, holding the round-tripped value. |
| `Json.WireIdempotent` | src/index.ts:4 | A value that has been through JSON once comes through a second time unchanged. |
| `Service.NotImplementedResponse` | src/index.ts:8-22 | The object has exactly the keys error_code, message, guidance, reminder, in that order. error_code is "NotImplemented" and the message is "<feature> is not implemented in this design-time scaffold.". reminder is true. guidance has openapi "/openapi.yaml", a suggested action naming the feature, and the hints in effect. |
| `Service.HintsRule` | src/index.ts:15-18 | Omitted hints become the fixed two-item default list. A supplied list is used unchanged, even an empty one, because an array is truthy. |
| `Service.NotImplementedGuidance` | src/index.ts:12-19 | The guidance block has distinct keys: openapi "/openapi.yaml", suggested_action "Implement the <feature> endpoint …", and hints as given. |
| `Service.HealthEnvelope` | src/index.ts:24-26 | The health body has status "ok", implemented false, the message "Design-time scaffold: implement service to proceed." and no error_code. |
| `Service.ListEnvelope` | src/index.ts:56-60 | The list body has data [] and no error_code. meta holds total 0 and the given limit and offset, and note holds the fixed scaffold note. |
| `Service.RecordNotFoundEnvelope` | src/index.ts:63-69 | The record 404 body has error_code NotFound. Its message is "Friction point <id> not found (design-time scaffold).", which contains the id. guidance has openapi, the fixed suggested action for the record route, and no hints. |
| `Service.FallbackEnvelope` | src/index.ts:71-74 | The generic 404 body has error_code NotFound, the message "Endpoint not found in scaffold." and no guidance. |
| `Service.Received` | src/index.ts:44-48 | `received` has exactly the keys summary, location, agent, in that order. Each holds the body's field when it is truthy, and null otherwise. |
| `Service.Echo` | src/index.ts:38-47 | `(req.body or {}).key or null` is either null or truthy. It is truthy exactly when the body has the key with a truthy value, and then it is that value. |
| `Service.CreateEnvelopeShape` | src/index.ts:39-49 | The creation body is a NotImplemented envelope for "POST /v1/friction-points" with its two hints, plus a fifth key, received, that holds the echo of the body. Keys stay distinct. |
| `Service.QueryNumber` | src/index.ts:54-55 | A query value that is present is converted by `Number()`. When the key is absent the result is the fallback, 50 or 0, as a finite number. |
| `Service.FirstMatch` | src/index.ts:24-74 | Routes are tried in registration order. The result is the first entry that accepts the method and path, and None only when no entry does. |
| `Service.Handle` | src/index.ts:24-69 | Every handler's response is coherent: status 200 has no error code, 404 has NotFound, 501 has NotImplemented, and the body has distinct keys. |
| `Service.Dispatch` | src/index.ts:24-74 | Every request gets status 200, 404 or 501, with the error code that matches the status. |
| `Service.Serve` | src/index.ts:24-74 | Over a run of requests, the response count matches the request count, and each response is `Dispatch` of its own request. |
| `ServiceLaws.RouteConditions` | src/index.ts:24-69 | Each table entry accepts exactly one method and its path. The method matters: GET /health, POST token, POST collection, GET collection, GET collection/<non-empty id>. |
| `ServiceLaws.RecordPattern` | src/index.ts:63 | `/v1/friction-points/:id` accepts exactly three segments whose last one is non-empty, and binds that segment to id. |
| `ServiceLaws.RoutesUnambiguous` | src/index.ts:24-69 | No request is accepted by two entries. |
| `ServiceLaws.FirstMatchFinds` | src/index.ts:24-69 | A request accepted by entry i is routed to entry i. |
| `ServiceLaws.FirstMatchMisses` | src/index.ts:71-74 | A request outside the table matches no entry. |
| `ServiceLaws.DispatchRoute` | src/index.ts:24-69 | A request an entry accepts is answered by that entry's handler, with the bound parameters. |
| `ServiceLaws.DispatchHealth` | src/index.ts:24-26 | GET /health answers 200 with status "ok" and implemented false. |
| `ServiceLaws.DispatchIssueToken` | src/index.ts:28-34 | POST /v1/auth/token answers 501 with exactly the token NotImplemented envelope and its two token hints, whatever the body and query. |
| `ServiceLaws.DispatchCreateFriction` | src/index.ts:36-50 | POST /v1/friction-points answers 501. The body is a NotImplemented envelope with the creation hints, and has keys error_code, message, guidance, reminder, received. received has exactly summary, location, agent, each echoed from the body. |
| `ServiceLaws.EchoRule` | src/index.ts:38-48 | A missing or non-object body echoes null. A field that is absent or falsy echoes null, and a truthy field is echoed unchanged. |
| `ServiceLaws.DispatchListFriction` | src/index.ts:52-61 | GET /v1/friction-points answers 200 with data [] and meta.total 0. meta.limit and meta.offset are the converted query values, or 50 and 0 when absent. |
| `ServiceLaws.DispatchGetFriction` | src/index.ts:63-69 | GET /v1/friction-points/<id> answers 404 with a NotFound envelope. Its message names the id and its guidance has no hints. |
| `ServiceLaws.DispatchFallback` | src/index.ts:71-74 | Exactly the requests outside the table get the generic 404, and that body has no guidance. |
| `ServiceLaws.FallbackExamples` | src/index.ts:71-74 | POST below a record path, GET of the token path and an unknown path all get the generic 404. |
| `Sdk.BearerRoundTrip` | src/sdk/index.ts:14 | The header `Bearer ${token}` gives back exactly its token. |
| `Sdk.NewClient` | src/sdk/index.ts:11-16 | The base URL is the given one, or "http://localhost:3000" when it is absent or empty. A header is set exactly when the token is non-empty, and it carries that token. |
| `Sdk.WithToken` | src/sdk/index.ts:18-21 | Any token, even "", installs a Bearer header for it. The base URL is unchanged. |
| `Sdk.WithTokenLastWins` | src/sdk/index.ts:18-21 | Of two withToken calls the last wins, and the base URL is untouched. |
| `Sdk.ConstructWithToken` | src/sdk/index.ts:11-21 | Constructing with a non-empty token equals constructing without one and then calling withToken. An empty token sets no header. |
| `Sdk.ParamList` | src/sdk/index.ts:35-40 | The query parameters sent are exactly the defined fields of the params object. Only limit and offset are ever sent, at most one of each. |
| `Sdk.ListDefaults` | src/sdk/index.ts:35 | No argument sends limit 50 and offset 0. `{}` sends no parameters. |
| `Sdk.TokenRequest` | src/sdk/index.ts:23-27 | obtainToken POSTs to the token path a body whose only key is api_key, holding the key, with no query parameters. |
| `Sdk.LogRequest` | src/sdk/index.ts:30-33 | logFriction POSTs the payload unchanged to the collection path. |
| `Sdk.ListRequest` | src/sdk/index.ts:35-40 | listFriction GETs the collection path with no body. Only limit and offset are sent, each at most once: the argument's defined fields, or 50 and 0 when the argument is omitted. |
| `Sdk.GetRequest` | src/sdk/index.ts:42-45 | getFriction GETs a path whose segments are v1, friction-points and then the segments of the id, which is not escaped. |
| `Sdk.LiteralPaths` | src/sdk/index.ts:25-37 | The fixed paths are "/v1/auth/token" and "/v1/friction-points". |
| `Sdk.FixedPathSegments` | src/sdk/index.ts:25-37 | The fixed paths split into the route table's segments. |
| `Sdk.RequestsCarryClient` | src/sdk/index.ts:11-45 | Every request carries the client's base URL and Authorization header. |
| `Sdk.Settle` | src/sdk/index.ts:24-26 | axios fulfils exactly for an answered 2xx status. A rejection carries the response exactly when one arrived. |
| `Sdk.Recover` | src/sdk/index.ts:26 | A fulfilled call yields its response, and a rejection that carries a response yields that response. The error itself comes back only for a rejection without a response, and it keeps the error's message. |
| `Sdk.Call` | src/sdk/index.ts:24-27 | A method returns the response whenever one arrived, whatever its status. It returns the error only when no response arrived. |
| `Sdk.AnyStatusReturned` | src/sdk/index.ts:26 | A non-2xx response is rejected by axios and still returned to the caller. |
| `Sdk.ObtainToken` | src/sdk/index.ts:23-28 | obtainToken returns the transport's response to the token request. |
| `Sdk.LogFriction` | src/sdk/index.ts:30-33 | logFriction returns the transport's response to the payload request. |
| `Sdk.ListFriction` | src/sdk/index.ts:35-40 | listFriction returns the transport's response to the list request. |
| `Sdk.GetFriction` | src/sdk/index.ts:42-45 | getFriction returns the transport's response to the record request. |
| `EndToEnd.Query` | src/sdk/index.ts:37 | The service sees a query key exactly when the client sent that parameter, with the rendered value. |
| `EndToEnd.Deliver` | src/index.ts:4 | The service sees the method and the segments of the path the client sent. It sees a query key exactly when that parameter was sent, with the rendered value, and the body after its JSON round trip. |
| `EndToEnd.Transmit` | src/sdk/index.ts:24-27 | The client reads the status that was sent, and each field of the body after its JSON round trip. |
| `EndToEnd.WireKeepsNotImplemented` | src/index.ts:8-22 | A NotImplemented envelope reaches the client with every field of its shape intact. |
| `EndToEnd.WireKeepsRecordNotFound` | src/index.ts:63-69 | The record NotFound envelope reaches the client intact, message included. |
| `EndToEnd.ObtainTokenAnswer` | test/sdk.test.ts:20-25 | obtainToken against the service returns 501 with the token NotImplemented envelope, as sent and then parsed by the client, for every key and client. |
| `EndToEnd.LogFrictionAnswer` | test/sdk.test.ts:27-37 | logFriction returns 501 with the creation envelope. Its received is the echo of the payload as the service parsed it, and the client parses it back in turn. |
| `EndToEnd.InfiniteSummaryArrivesNull` | src/index.ts:45 | An infinite summary reaches the service as null, so it is echoed, and read back, as null. |
| `EndToEnd.PayloadEchoed` | test/sdk.test.ts:28-36 | Non-empty string summary, location and agent survive both JSON legs unchanged, and details is not echoed. |
| `EndToEnd.ListFrictionAnswer` | test/sdk.test.ts:39-44 | listFriction({limit, offset}) returns 200 with data [] and total 0. meta echoes the limit and offset sent, and either one reads back as null when it is NaN or infinite. |
| `EndToEnd.PageArrives` | src/index.ts:56-60 | An empty page reaches the client with data [], total 0, and its limit and offset, or null for one that JSON cannot carry. |
| `EndToEnd.ListFrictionEmptyParams` | src/sdk/index.ts:35-40 | listFriction({}) returns meta limit 50 and offset 0 from the service's defaults, whatever the number conversions. |
| `EndToEnd.GetFrictionAnswer` | test/sdk.test.ts:46-50 | getFriction of a single-segment id that the URL parser leaves alone returns 404 with the record NotFound envelope naming the id. |
| `EndToEnd.GetFrictionSlash` | src/sdk/index.ts:42-45 | getFriction of an id containing '/' returns the generic 404, with error_code NotFound and no guidance, not the record 404. |
| `EndToEnd.SuiteTokenTest` | test/sdk.test.ts:20-25 | The suite's obtainToken('fake-key') gets status 501, error_code NotImplemented and a guidance block. |
| `EndToEnd.SuiteLogTest` | test/sdk.test.ts:27-37 | The suite's payload gets status 501 and error_code NotImplemented. received has summary 's', location 'repo:main:src:1' and agent 'agent:1'. |
| `EndToEnd.SuiteListTest` | test/sdk.test.ts:39-44 | The suite's listFriction({limit: 5, offset: 0}) gets status 200, an array data and meta limit 5, offset 0. |
| `EndToEnd.SuiteGetTest` | test/sdk.test.ts:46-50 | The suite's getFriction('missing-id') gets status 404 and error_code NotFound. |

## Left out

- The Express and axios runtimes are left out: HTTP transport, `app.listen` and its startup log line (src/index.ts:76-83), and `PORT` read from the environment (src/index.ts:6). These are process plumbing. `Service` starts from a parsed request and ends at the value given to `res.json`; `EndToEnd` goes on from what the client sends to what the client parses back, through the JSON round trip on both legs.
- Parsing a malformed JSON body, and the 400 answer to it, is left out. A request's body is the value the client sent after its JSON round trip, or absent.
- EndToEnd.Deliver: hands every body to the service. `express.json()` (src/index.ts:4) rejects a body over its default 100kb limit with 413, answered by Express's default error handler and not by any route or the fallback; body size is not modelled.
- EndToEnd.ObtainTokenAnswer: the 501 answer holds only while the request body stays within that 100kb limit; an API key long enough to exceed it gets 413 instead.
- EndToEnd.LogFrictionAnswer: the 501 answer holds only while the payload's JSON text stays within that 100kb limit; a larger payload gets 413 instead.
- `Number()` applied to a query string is the parameter `toNumber`, because string-to-number conversion is JavaScript library behaviour. Negative zero is not distinguished from zero.
- How axios renders a number into a query string is the parameter `encode`.
- JSON serialisation is modelled only for what this model's values can hold (`Json.Wire`): NaN and the infinities become `null`. `toJSON`, `undefined` members and negative zero are left out, because no value here has them.
- Express routing quirks are left out: trailing-slash tolerance, case-insensitive matching, percent-decoding of parameters, HEAD served by GET routes, and OPTIONS. In the model a path is an exact sequence of segments.
- Repeated query parameters and bracket syntax, which Express turns into arrays or objects, are left out. A query is a map from name to one string.
- The server never reads the Authorization header. `EndToEnd.Deliver` therefore drops it, together with the base URL, which is assumed to address the service.
- Joining axios's `baseURL` with a path, other headers, and timeouts are left out.
- The contents of a transport error are left out: when no response arrives, the error is an opaque message.
- `withToken` returning `this` for chaining is modelled as returning the updated client value.
- The test suite's lifecycle is left out. It imports a `startServer` that src/index.ts does not export (test/sdk.test.ts:3). vitest.config.ts is tooling only.
- Sdk.Settle: the rejection message leaves out the status number that axios appends to "Request failed with status code".
- EndToEnd.ListFrictionAnswer: requires that `toNumber` parses back what `encode` rendered for the two values sent. Without it the service's `meta` depends on conversions the model leaves open.
- EndToEnd.GetFrictionAnswer: requires an id that is non-empty, has no '/' and is neither "." nor "..". It must also have none of '?', '#', '%', `\`, tab, line feed or carriage return, and must not end in a space or control character. The URL parser axios uses rewrites such ids before Express sees them. It cuts the path at '?' or '#' and reads `\` as '/'. It deletes tabs and line breaks and trims the end of the URL. It resolves "." and ".." segments away, and Express percent-decodes the parameter. An empty id or one ending in '/' meets the router's trailing-slash tolerance. The model leaves out all of these rewrites.
- EndToEnd.GetFrictionSlash: requires an id whose last character is not '/', with the same character restrictions and no "." or ".." segment, for the same reason.

=== FILE: end_to_end.dfy ===
/** The client talking to the scaffold service: each SDK request is
    delivered to `Dispatch` as the service sees it, and the answers the
    client methods return are stated for every argument, with the test
    suite's own calls as instances. */
module EndToEnd {
  import opened Options
  import opened Json
  import opened Http
  import Service
  import ServiceLaws
  import opened Sdk
  import Paths

  /** The query map the service parses from the parameters axios sends;
      `encode` renders a number as its query-string text. A parameter sent
      twice keeps its first value, as `Lookup` reads it. */
  function Query(params: seq<(string, Number)>, encode: Number -> string): (m: map<string, string>)
    ensures forall k :: k in m <==> Lookup(params, k).Some?
    ensures forall k :: k in m ==> m[k] == encode(Lookup(params, k).value)
  {
    if |params| == 0 then map[]
    else Query(params[1..], encode)[params[0].0 := encode(params[0].1)]
  }

  /** The request the service receives for an SDK request sent to it; the
      base URL is taken to address the service, and the Authorization header
      is not part of what any handler reads. A body travels as JSON text, so
      the service reads the sent value after the round trip `Wire`. */
  function Deliver(q: Outgoing, encode: Number -> string): (req: Service.Request)
    ensures req.verb == q.verb && req.path == Paths.Segments(q.path)
    ensures req.body.Some? <==> q.body.Some?
    ensures req.body.Some? ==> req.body.value == Wire(q.body.value)
    ensures forall k :: k in req.query <==> Lookup(q.params, k).Some?
    ensures forall k :: k in req.query ==> req.query[k] == encode(Lookup(q.params, k).value)
  {
    var body := match q.body case None => None case Some(b) => Some(Wire(b));
    Service.Request(q.verb, Paths.Segments(q.path), Query(q.params, encode), body)
  }

  /** The response as the client reads it: the status as sent, the body
      after its own JSON round trip. */
  function Transmit(r: Response): (t: Response)
    ensures t.status == r.status
    ensures forall k :: Field(t.body, k) == if Field(r.body, k).Some? then Some(Wire(Field(r.body, k).value)) else None
  {
    forall k ensures Field(Wire(r.body), k) == if Field(r.body, k).Some? then Some(Wire(Field(r.body, k).value)) else None {
      FieldWire(r.body, k);
    }
    Response(r.status, Wire(r.body))
  }

  /** A transport on which every request reaches the scaffold service. */
  function Scaffold(toNumber: string -> Number, encode: Number -> string): Outgoing -> Exchange {
    q => Answered(Transmit(Service.Dispatch(toNumber, Deliver(q, encode))))
  }

  /** A character the URL parser axios uses does not leave in place within
      a path: the query and fragment delimiters, the percent escape, the
      backslash it reads as '/', and the tab and line breaks it deletes. */
  predicate UrlRewritten(ch: char) {
    ch == '?' || ch == '#' || ch == '%' || ch == '\\' || ch == '\t' || ch == '\n' || ch == '\r'
  }

  /** An id whose characters axios keeps in the path: none is rewritten,
      and it does not end in a space or control character (trimmed from the
      end of a URL). */
  predicate UrlPlain(id: string) {
    && (forall i :: 0 <= i < |id| ==> !UrlRewritten(id[i]))
    && (|id| > 0 ==> id[|id| - 1] > ' ')
  }

  /** An id that the router hands back verbatim: plain, and without a "."
      or ".." segment, which the URL parser resolves away as a dot segment. */
  predicate PathSafe(id: string) {
    && UrlPlain(id)
    && (forall seg :: seg in Paths.Split(id) ==> seg != "." && seg != "..")
  }

  /** A NotImplemented envelope keeps its shape on the way to the client. */
  lemma WireKeepsNotImplemented(j: Json, feature: string, hints: seq<string>)
    requires Service.IsNotImplemented(j, feature, hints)
    ensures Service.IsNotImplemented(Wire(j), feature, hints)
  {
    var g := Field(j, "guidance").value;
    FieldWire(j, "error_code");
    FieldWire(j, "message");
    FieldWire(j, "reminder");
    FieldWire(j, "guidance");
    FieldWire(g, "openapi");
    FieldWire(g, "suggested_action");
    FieldWire(g, "hints");
    WireStrings(hints);
  }

  /** So does the record NotFound envelope, message included. */
  lemma WireKeepsRecordNotFound(j: Json, id: string)
    requires Service.IsRecordNotFound(j, id)
    ensures Service.IsRecordNotFound(Wire(j), id)
    ensures Field(Wire(j), "message") == Field(j, "message")
  {
    var g := Field(j, "guidance").value;
    FieldWire(j, "error_code");
    FieldWire(j, "message");
    FieldWire(j, "guidance");
    FieldWire(g, "openapi");
    FieldWire(g, "suggested_action");
    FieldWire(g, "hints");
  }

  /** `obtainToken` returns the token route's 501 NotImplemented envelope,
      whatever the API key and the client. */
  lemma ObtainTokenAnswer(toNumber: string -> Number, encode: Number -> string, c: Client, apiKey: string)
    ensures ObtainToken(c, apiKey, Scaffold(toNumber, encode))
         == Got(Transmit(Response(501, Service.NotImplementedResponse("POST /v1/auth/token", Some(Service.TokenHints)))))
    ensures Service.IsNotImplemented(ObtainToken(c, apiKey, Scaffold(toNumber, encode)).response.body, "POST /v1/auth/token", Service.TokenHints)
  {
    FixedPathSegments();
    ServiceLaws.DispatchIssueToken(toNumber, Deliver(TokenRequest(c, apiKey), encode));
    WireKeepsNotImplemented(Service.NotImplementedResponse("POST /v1/auth/token", Some(Service.TokenHints)), "POST /v1/auth/token", Service.TokenHints);
  }

  /** `logFriction` returns 501 with the creation envelope, whose
      `received` echoes the payload's summary, location and agent as the
      service parsed them and as the client parses them back: a NaN or
      infinite field is null on both legs. */
  lemma LogFrictionAnswer(toNumber: string -> Number, encode: Number -> string, c: Client, payload: seq<(string, Json)>)
    ensures var o := LogFriction(c, payload, Scaffold(toNumber, encode));
      && o.Got? && o.response.status == 501
      && Service.IsNotImplemented(o.response.body, "POST /v1/friction-points", Service.CreateHints)
      && Field(o.response.body, "received") == Some(Wire(Service.Received(Some(Wire(Obj(payload))))))
  {
    FixedPathSegments();
    var req := Deliver(LogRequest(c, payload), encode);
    ServiceLaws.DispatchCreateFriction(toNumber, req);
    WireKeepsNotImplemented(Service.Dispatch(toNumber, req).body, "POST /v1/friction-points", Service.CreateHints);
  }

  /** The case JSON cannot carry: an infinite summary reaches the service,
      and so comes back, as null. */
  lemma InfiniteSummaryArrivesNull(toNumber: string -> Number, encode: Number -> string, c: Client)
    ensures var o := LogFriction(c, [("summary", Num(Infinite(false)))], Scaffold(toNumber, encode));
      && Field(o.response.body, "received").Some?
      && Field(Field(o.response.body, "received").value, "summary") == Some(Null)
  {
    var payload := [("summary", Num(Infinite(false)))];
    LogFrictionAnswer(toNumber, encode, c, payload);
    InfiniteEchoedNull(payload);
    FieldWire(Service.Received(Some(Wire(Obj(payload)))), "summary");
  }

  lemma InfiniteEchoedNull(payload: seq<(string, Json)>)
    requires Lookup(payload, "summary") == Some(Num(Infinite(false)))
    ensures Field(Service.Received(Some(Wire(Obj(payload)))), "summary") == Some(Null)
  {
    LookupWire(payload, "summary");
  }

  /** `listFriction(params)` returns 200 with an empty page whose `meta`
      echoes the limit and offset sent, provided the service parses back
      the numbers axios rendered; a NaN or infinite one reads back as null. */
  lemma ListFrictionAnswer(toNumber: string -> Number, encode: Number -> string, c: Client, limit: Number, offset: Number)
    requires toNumber(encode(limit)) == limit && toNumber(encode(offset)) == offset
    ensures var o := ListFriction(c, Some(ListParams(Some(limit), Some(offset))), Scaffold(toNumber, encode));
      && o.Got? && o.response.status == 200
      && Field(o.response.body, "data") == Some(Arr([]))
      && Field(o.response.body, "meta").Some?
      && Field(Field(o.response.body, "meta").value, "total") == Some(Int(0))
      && Field(Field(o.response.body, "meta").value, "limit") == Some(if limit.Finite? then Num(limit) else Null)
      && Field(Field(o.response.body, "meta").value, "offset") == Some(if offset.Finite? then Num(offset) else Null)
  {
    FixedPathSegments();
    var req := Deliver(ListRequest(c, Some(ListParams(Some(limit), Some(offset)))), encode);
    ServiceLaws.DispatchListFriction(toNumber, req);
    PageArrives(Service.Dispatch(toNumber, req).body, limit, offset);
  }

  /** An empty page reaches the client with its meta numbers, each null
      when JSON cannot carry it. */
  lemma PageArrives(page: Json, limit: Number, offset: Number)
    requires Field(page, "data") == Some(Arr([])) && Field(page, "meta").Some?
    requires Field(Field(page, "meta").value, "total") == Some(Int(0))
    requires Field(Field(page, "meta").value, "limit") == Some(Num(limit))
    requires Field(Field(page, "meta").value, "offset") == Some(Num(offset))
    ensures Field(Wire(page), "data") == Some(Arr([])) && Field(Wire(page), "meta").Some?
    ensures Field(Field(Wire(page), "meta").value, "total") == Some(Int(0))
    ensures Field(Field(Wire(page), "meta").value, "limit") == Some(if limit.Finite? then Num(limit) else Null)
    ensures Field(Field(Wire(page), "meta").value, "offset") == Some(if offset.Finite? then Num(offset) else Null)
  {
    var meta := Field(page, "meta").value;
    assert Wire(Arr([])) == Arr([]);
    FieldWire(page, "data");
    FieldWire(page, "meta");
    FieldWire(meta, "total");
    FieldWire(meta, "limit");
    FieldWire(meta, "offset");
  }

  /** With `{}` no parameter is sent and the service's own defaults, 50 and
      0, appear in `meta`, whatever the number conversions. */
  lemma ListFrictionEmptyParams(toNumber: string -> Number, encode: Number -> string, c: Client)
    ensures var o := ListFriction(c, Some(ListParams(None, None)), Scaffold(toNumber, encode));
      && o.Got? && o.response.status == 200
      && Field(o.response.body, "meta").Some?
      && Field(Field(o.response.body, "meta").value, "limit") == Some(Int(50))
      && Field(Field(o.response.body, "meta").value, "offset") == Some(Int(0))
  {
    FixedPathSegments();
    var req := Deliver(ListRequest(c, Some(ListParams(None, None))), encode);
    ServiceLaws.DispatchListFriction(toNumber, req);
    var meta := Field(Service.Dispatch(toNumber, req).body, "meta").value;
    FieldWire(meta, "limit");
    FieldWire(meta, "offset");
  }

  /** `getFriction(id)` for a single-segment id returns the record 404,
      whose message names the id. An empty id or one ending in '/' would
      meet the router's trailing-slash tolerance, and "." or ".." would be
      resolved away by the URL parser; neither is part of this model, so
      such ids are excluded, as are those `UrlPlain` rules out. */
  lemma GetFrictionAnswer(toNumber: string -> Number, encode: Number -> string, c: Client, id: string)
    requires id != "" && '/' !in id && id != "." && id != ".." && UrlPlain(id)
    ensures var o := GetFriction(c, id, Scaffold(toNumber, encode));
      && o.Got? && o.response.status == 404
      && Service.IsRecordNotFound(o.response.body, id)
  {
    GetRecordPath(id);
    var req := Deliver(GetRequest(c, id), encode);
    ServiceLaws.DispatchGetFriction(toNumber, req);
    WireKeepsRecordNotFound(Service.Dispatch(toNumber, req).body, id);
  }

  lemma GetRecordPath(id: string)
    requires id != "" && '/' !in id
    ensures ["v1", "friction-points"] + Paths.Split(id) == ["v1", "friction-points", id]
  {
    Paths.NoSlash(id);
  }

  /** An id containing '/' spans several segments, so no route accepts the
      path and the generic 404 without guidance answers instead of the
      record 404. The id must reach the router as written (`PathSafe`). */
  lemma GetFrictionSlash(toNumber: string -> Number, encode: Number -> string, c: Client, id: string)
    requires '/' in id && id[|id| - 1] != '/' && PathSafe(id)
    ensures GetFriction(c, id, Scaffold(toNumber, encode)) == Got(Transmit(Response(404, Service.FallbackEnvelope())))
    ensures var o := GetFriction(c, id, Scaffold(toNumber, encode));
      && Field(o.response.body, "error_code") == Some(Str("NotFound"))
      && Field(o.response.body, "guidance").None?
  {
    Paths.NoSlash(id);
    var req := Deliver(GetRequest(c, id), encode);
    assert |req.path| >= 4;
    ServiceLaws.DispatchFallback(toNumber, req);
  }

  /** A creation payload with the four fields the API documents. */
  function Payload(summary: string, details: string, location: string, agent: string): seq<(string, Json)> {
    [("summary", Str(summary)), ("details", Str(details)), ("location", Str(location)), ("agent", Str(agent))]
  }

  /** The payload of the creation test. */
  const TestPayload: seq<(string, Json)> := Payload("s", "d", "repo:main:src:1", "agent:1")

  /** The four tests of the SDK suite, as statements about the model. */
  lemma SuiteTokenTest(toNumber: string -> Number, encode: Number -> string)
    ensures var o := ObtainToken(NewClient(ClientOptions(Some("http://localhost:3010"), None)), "fake-key", Scaffold(toNumber, encode));
      && o.Got? && o.response.status == 501
      && Field(o.response.body, "error_code") == Some(Str("NotImplemented"))
      && Field(o.response.body, "guidance").Some?
  {
    ObtainTokenAnswer(toNumber, encode, NewClient(ClientOptions(Some("http://localhost:3010"), None)), "fake-key");
  }

  lemma SuiteLogTest(toNumber: string -> Number, encode: Number -> string)
    ensures var o := LogFriction(NewClient(ClientOptions(Some("http://localhost:3010"), None)), TestPayload, Scaffold(toNumber, encode));
      && o.Got? && o.response.status == 501
      && Field(o.response.body, "error_code") == Some(Str("NotImplemented"))
      && Field(o.response.body, "received").Some?
      && Field(Field(o.response.body, "received").value, "summary") == Some(Str("s"))
      && Field(Field(o.response.body, "received").value, "location") == Some(Str("repo:main:src:1"))
      && Field(Field(o.response.body, "received").value, "agent") == Some(Str("agent:1"))
  {
    LogFrictionAnswer(toNumber, encode, NewClient(ClientOptions(Some("http://localhost:3010"), None)), TestPayload);
    PayloadEchoed("s", "d", "repo:main:src:1", "agent:1");
  }

  /** A payload's non-empty summary, location and agent come back
      unchanged after both JSON legs; its `details` is not echoed at all. */
  lemma PayloadEchoed(summary: string, details: string, location: string, agent: string)
    requires summary != "" && location != "" && agent != ""
    ensures var r := Wire(Service.Received(Some(Wire(Obj(Payload(summary, details, location, agent))))));
      && Field(r, "summary") == Some(Str(summary))
      && Field(r, "location") == Some(Str(location))
      && Field(r, "agent") == Some(Str(agent))
      && Field(r, "details").None?
  {
    var ms := Payload(summary, details, location, agent);
    assert Wire(Obj(ms)) == Obj(WireMembers(ms));
    PayloadSent(summary, details, location, agent);
    EchoedStrings(WireMembers(ms), summary, location, agent);
  }

  /** An object whose summary, location and agent are non-empty strings
      gets them back, and no `details`. */
  lemma EchoedStrings(sent: seq<(string, Json)>, summary: string, location: string, agent: string)
    requires summary != "" && location != "" && agent != ""
    requires Lookup(sent, "summary") == Some(Str(summary))
    requires Lookup(sent, "location") == Some(Str(location))
    requires Lookup(sent, "agent") == Some(Str(agent))
    ensures var r := Wire(Service.Received(Some(Obj(sent))));
      && Field(r, "summary") == Some(Str(summary))
      && Field(r, "location") == Some(Str(location))
      && Field(r, "agent") == Some(Str(agent))
      && Field(r, "details").None?
  {
    EchoedBack(sent, "summary", Str(summary));
    EchoedBack(sent, "location", Str(location));
    EchoedBack(sent, "agent", Str(agent));
    var rec := Service.Received(Some(Obj(sent)));
    LookupAbsent(rec.members, "details");
    FieldWire(rec, "details");
  }

  /** The payload's strings reach the service unchanged. */
  lemma PayloadSent(summary: string, details: string, location: string, agent: string)
    ensures var sent := WireMembers(Payload(summary, details, location, agent));
      && Lookup(sent, "summary") == Some(Str(summary))
      && Lookup(sent, "location") == Some(Str(location))
      && Lookup(sent, "agent") == Some(Str(agent))
  {
    var ms := Payload(summary, details, location, agent);
    PayloadLookups(summary, details, location, agent);
    LookupWire(ms, "summary");
    LookupWire(ms, "location");
    LookupWire(ms, "agent");
  }

  /** A truthy field the round trip leaves alone comes back unchanged. */
  lemma EchoedBack(ms: seq<(string, Json)>, key: string, v: Json)
    requires key in Service.EchoedKeys && Lookup(ms, key) == Some(v) && Truthy(v) && Wire(v) == v
    ensures Field(Wire(Service.Received(Some(Obj(ms)))), key) == Some(v)
  {
    EchoedField(ms, key, v);
    FieldWire(Service.Received(Some(Obj(ms))), key);
  }

  /** A truthy field of an object body is echoed unchanged. */
  lemma EchoedField(ms: seq<(string, Json)>, key: string, v: Json)
    requires key in Service.EchoedKeys && Lookup(ms, key) == Some(v) && Truthy(v)
    ensures Field(Service.Received(Some(Obj(ms))), key) == Some(v)
  {
  }

  /** Each field of a payload is found under its own key. */
  lemma PayloadLookups(summary: string, details: string, location: string, agent: string)
    ensures var ms := Payload(summary, details, location, agent);
      && Lookup(ms, "summary") == Some(Str(summary))
      && Lookup(ms, "location") == Some(Str(location))
      && Lookup(ms, "agent") == Some(Str(agent))
  {
    var ms := Payload(summary, details, location, agent);
    assert DistinctKeys(ms) by {
      assert ms[0].0 == "summary" && ms[1].0 == "details" && ms[2].0 == "location" && ms[3].0 == "agent";
    }
    LookupMember(ms, 0);
    LookupMember(ms, 2);
    LookupMember(ms, 3);
  }

  lemma SuiteListTest(toNumber: string -> Number, encode: Number -> string)
    requires toNumber(encode(Finite(5.0))) == Finite(5.0) && toNumber(encode(Finite(0.0))) == Finite(0.0)
    ensures var o := ListFriction(NewClient(ClientOptions(Some("http://localhost:3010"), None)), Some(ListParams(Some(Finite(5.0)), Some(Finite(0.0)))), Scaffold(toNumber, encode));
      && o.Got? && o.response.status == 200
      && Field(o.response.body, "data").Some? && Field(o.response.body, "data").value.Arr?
      && Field(o.response.body, "meta").Some?
      && Field(Field(o.response.body, "meta").value, "limit") == Some(Int(5))
      && Field(Field(o.response.body, "meta").value, "offset") == Some(Int(0))
  {
    ListFrictionAnswer(toNumber, encode, NewClient(ClientOptions(Some("http://localhost:3010"), None)), Finite(5.0), Finite(0.0));
  }

  lemma SuiteGetTest(toNumber: string -> Number, encode: Number -> string)
    ensures var o := GetFriction(NewClient(ClientOptions(Some("http://localhost:3010"), None)), "missing-id", Scaffold(toNumber, encode));
      && o.Got? && o.response.status == 404
      && Field(o.response.body, "error_code") == Some(Str("NotFound"))
  {
    GetFrictionAnswer(toNumber, encode, NewClient(ClientOptions(Some("http://localhost:3010"), None)), "missing-id");
  }
}

=== FILE: http.dfy ===
/** The HTTP vocabulary shared by the service and its client: the request
    methods the route table distinguishes and a response as a status code
    with a JSON body. */
module Http {
  import opened Json

  /** GET, POST, or any other method, which no route accepts. `Other`
      stands only for methods other than GET and POST: a request carrying
      either of those is `Get` or `Post`, so `Other("GET")` never occurs. */
  datatype Method = Get | Post | Other(name: string)

  /** A response: its status code and the value handed to `res.json`. The
      client reads `resp.data` only after the JSON round trip, `Json.Wire`,
      which turns NaN and the infinities into `null`. */
  datatype Response = Response(status: int, body: Json)
}

=== FILE: json.dfy ===
/** JavaScript values as they travel through the service: the JSON-compatible
    subset (null, booleans, numbers, strings, arrays and objects) together with
    the two pieces of JavaScript semantics the handlers rely on, property
    access on an object and the truthiness test behind `||`. */
module Json {
  import opened Options

  /** A JavaScript number as far as the service can observe one: `Number()`
      coercion of a query string may produce a finite value, NaN or an
      infinity. Negative zero is not distinguished from zero, and a finite
      value is any real, not only a double: no value this model builds
      depends on the difference. */
  datatype Number = Finite(value: real) | NaN | Infinite(negative: bool)

  /** Objects keep their keys in insertion order, as JavaScript objects with
      non-numeric keys do; that order is the order `res.json` writes them.
      A JavaScript object never repeats a key, so `Obj` values that do (for
      which `Lookup` reads the first occurrence where `JSON.parse` would keep
      the last) never arise from a request or a handler. */
  datatype Json =
    | Null
    | Bool(b: bool)
    | Num(n: Number)
    | Str(s: string)
    | Arr(items: seq<Json>)
    | Obj(members: seq<(string, Json)>)

  /** An integer-valued number, as written in a literal such as `50`. */
  function Int(i: int): Json {
    Num(Finite(i as real))
  }

  /** An array of strings. */
  function Strings(ss: seq<string>): (r: Json)
    ensures r.Arr? && |r.items| == |ss|
    ensures forall i :: 0 <= i < |ss| ==> r.items[i] == Str(ss[i])
  {
    Arr(seq(|ss|, i requires 0 <= i < |ss| => Str(ss[i])))
  }

  /** The keys of an object, in order. */
  function Keys(ms: seq<(string, Json)>): (ks: seq<string>)
    ensures |ks| == |ms|
    ensures forall i :: 0 <= i < |ms| ==> ks[i] == ms[i].0
  {
    if |ms| == 0 then [] else [ms[0].0] + Keys(ms[1..])
  }

  /** Every JavaScript object has distinct keys; a value built by an object
      literal or by `JSON.parse` satisfies this. */
  predicate DistinctKeys(ms: seq<(string, Json)>) {
    forall i, j :: 0 <= i < j < |ms| ==> ms[i].0 != ms[j].0
  }

  /** The first value stored under `key` in a list of named values, or None
      when no entry has that key: property access on an object's members,
      and the value of a query parameter. */
  function Lookup<V>(ms: seq<(string, V)>, key: string): (r: Option<V>)
    ensures r.Some? ==> (key, r.value) in ms
    ensures r.None? ==> forall i :: 0 <= i < |ms| ==> ms[i].0 != key
  {
    if |ms| == 0 then None
    else if ms[0].0 == key then Some(ms[0].1)
    else
      var r := Lookup(ms[1..], key);
      assert r.Some? ==> (key, r.value) in ms by {
        if r.Some? { assert (key, r.value) in ms[1..]; }
      }
      assert r.None? ==> forall i :: 0 <= i < |ms| ==> ms[i].0 != key by {
        if r.None? {
          forall i | 0 <= i < |ms| ensures ms[i].0 != key {
            if i > 0 { assert ms[i] == ms[1..][i - 1]; }
          }
        }
      }
      r
  }

  /** Property access `v.key` for the keys this model reads (none of which is
      an inherited property of a string or an array): only an object has
      them. */
  function Field(v: Json, key: string): Option<Json> {
    if v.Obj? then Lookup(v.members, key) else None
  }

  /** JavaScript truthiness: `null`, `false`, `0`, `NaN` and `""` are falsy;
      every other value, including every array and object, is truthy. */
  predicate Truthy(v: Json): (t: bool)
    ensures !t <==> v == Null || v == Bool(false) || v == Num(Finite(0.0)) || v == Num(NaN) || v == Str("")
  {
    match v
    case Null => false
    case Bool(b) => b
    case Num(n) => (n.Finite? && n.value != 0.0) || n.Infinite?
    case Str(s) => s != ""
    case Arr(_) => true
    case Obj(_) => true
  }

  /** JavaScript `a || b`, where an absent `a` stands for `undefined`. */
  function Or(a: Option<Json>, b: Json): Json {
    if a.Some? && Truthy(a.value) then a.value else b
  }

  /** A lookup in the concatenation of two objects finds the first one's
      value when it has the key and the second one's otherwise. */
  lemma {:induction false} LookupAppend(a: seq<(string, Json)>, b: seq<(string, Json)>, key: string)
    ensures Lookup(a + b, key) == if Lookup(a, key).Some? then Lookup(a, key) else Lookup(b, key)
  {
    if |a| == 0 {
      assert a + b == b;
    } else {
      assert (a + b)[1..] == a[1..] + b;
      if a[0].0 != key {
        LookupAppend(a[1..], b, key);
      }
    }
  }

  /** The keys of a concatenation are the keys of its parts. */
  lemma {:induction false} KeysAppend(a: seq<(string, Json)>, b: seq<(string, Json)>)
    ensures Keys(a + b) == Keys(a) + Keys(b)
  {
    var l, r := Keys(a + b), Keys(a) + Keys(b);
    assert |l| == |r|;
    forall i | 0 <= i < |l| ensures l[i] == r[i] {
      if i < |a| { assert (a + b)[i] == a[i]; } else { assert (a + b)[i] == b[i - |a|]; }
    }
  }

  /** Concatenating two objects keeps keys distinct when each part has
      distinct keys and no key occurs in both. */
  lemma DistinctKeysAppend(a: seq<(string, Json)>, b: seq<(string, Json)>)
    requires DistinctKeys(a) && DistinctKeys(b)
    requires forall i, j :: 0 <= i < |a| && 0 <= j < |b| ==> a[i].0 != b[j].0
    ensures DistinctKeys(a + b)
  {
    var c := a + b;
    forall i, j | 0 <= i < j < |c| ensures c[i].0 != c[j].0 {
      if j < |a| { assert c[i] == a[i] && c[j] == a[j]; }
      else if i >= |a| { assert c[i] == b[i - |a|] && c[j] == b[j - |a|]; }
      else { assert c[i] == a[i] && c[j] == b[j - |a|]; }
    }
  }

  /** A lookup fails exactly when the key is not among the object's keys. */
  lemma {:induction false} LookupAbsent(ms: seq<(string, Json)>, key: string)
    ensures Lookup(ms, key).None? <==> key !in Keys(ms)
  {
    if |ms| > 0 {
      LookupAbsent(ms[1..], key);
      assert Keys(ms) == [ms[0].0] + Keys(ms[1..]);
    }
  }

  /** In an object with distinct keys, each member is found by its own key. */
  lemma {:induction false} LookupMember(ms: seq<(string, Json)>, i: int)
    requires DistinctKeys(ms)
    requires 0 <= i < |ms|
    ensures Lookup(ms, ms[i].0) == Some(ms[i].1)
  {
    if i > 0 {
      assert ms[0].0 != ms[i].0;
      assert DistinctKeys(ms[1..]) by {
        forall p, q | 0 <= p < q < |ms| - 1
          ensures ms[1..][p].0 != ms[1..][q].0
        {
          assert ms[1..][p] == ms[p + 1] && ms[1..][q] == ms[q + 1];
        }
      }
      LookupMember(ms[1..], i - 1);
    }
  }

  /** The value the receiving side reads after `JSON.stringify` on the
      sending side and `JSON.parse` on the receiving one: NaN and the
      infinities are written as `null`, at any depth, and everything else
      this model represents arrives unchanged. */
  function Wire(v: Json): (w: Json)
    ensures v.Obj? <==> w.Obj?
    ensures v.Num? && v.n.Finite? ==> w == v
    ensures v.Num? && !v.n.Finite? ==> w == Null
    ensures !v.Num? && !v.Arr? && !v.Obj? ==> w == v
    decreases v
  {
    match v
    case Num(n) => if n.Finite? then v else Null
    case Arr(items) => Arr(seq(|items|, i requires 0 <= i < |items| => Wire(items[i])))
    case Obj(ms) => Obj(WireMembers(ms))
    case _ => v
  }

  /** The members of an object after the round trip: same keys, each value
      sent through `Wire`. */
  function WireMembers(ms: seq<(string, Json)>): (r: seq<(string, Json)>)
    ensures |r| == |ms|
    ensures forall i :: 0 <= i < |ms| ==> r[i].0 == ms[i].0
    decreases ms
  {
    if |ms| == 0 then []
    else
      assert ms[0] in ms && ms[0].1 < ms[0];
      [(ms[0].0, Wire(ms[0].1))] + WireMembers(ms[1..])
  }

  /** Property access commutes with the round trip: a key is present after
      it exactly when it was present before, holding the sent value. */
  lemma FieldWire(v: Json, key: string)
    ensures Field(Wire(v), key) == if Field(v, key).Some? then Some(Wire(Field(v, key).value)) else None
  {
    if v.Obj? {
      LookupWire(v.members, key);
    }
  }

  lemma {:induction false} LookupWire(ms: seq<(string, Json)>, key: string)
    ensures Lookup(WireMembers(ms), key) == if Lookup(ms, key).Some? then Some(Wire(Lookup(ms, key).value)) else None
  {
    if |ms| > 0 {
      var r := WireMembers(ms);
      assert r[1..] == WireMembers(ms[1..]);
      LookupWire(ms[1..], key);
    }
  }

  /** The round trip keeps an object's keys, their order included. */
  lemma KeysWire(ms: seq<(string, Json)>)
    ensures Keys(WireMembers(ms)) == Keys(ms)
  {
  }

  /** An array of strings arrives unchanged. */
  lemma WireStrings(ss: seq<string>)
    ensures Wire(Strings(ss)) == Strings(ss)
  {
    var a := Strings(ss);
    assert Wire(a).items == a.items;
  }

  /** The round trip is idempotent: what arrived, sent again, arrives the
      same. */
  lemma {:induction false} WireIdempotent(v: Json)
    ensures Wire(Wire(v)) == Wire(v)
    decreases v
  {
    match v
    case Arr(items) =>
      var w := Wire(v);
      forall i | 0 <= i < |items| ensures Wire(w.items[i]) == w.items[i] {
        WireIdempotent(items[i]);
      }
      assert Wire(w).items == w.items;
    case Obj(ms) =>
      WireMembersIdempotent(ms);
    case _ =>
  }

  lemma {:induction false} WireMembersIdempotent(ms: seq<(string, Json)>)
    ensures WireMembers(WireMembers(ms)) == WireMembers(ms)
    decreases ms
  {
    if |ms| > 0 {
      var r := WireMembers(ms);
      assert ms[0] in ms && ms[0].1 < ms[0];
      WireIdempotent(ms[0].1);
      WireMembersIdempotent(ms[1..]);
      assert r[1..] == WireMembers(ms[1..]);
    }
  }
}

=== FILE: options.dfy ===
/** JavaScript's `undefined` in the model: an absent argument, field or
    header is `None`, a present one is `Some`. */
module Options {

  datatype Option<+T> = None | Some(value: T)

  /** `a ?? fallback`: the present value, otherwise the fallback. */
  function Coalesce<T>(a: Option<T>, fallback: T): (r: T)
    ensures a.Some? ==> r == a.value
    ensures a.None? ==> r == fallback
  {
    if a.Some? then a.value else fallback
  }
}

=== FILE: paths.dfy ===
/** URL paths as sequences of segments. The service's routes are written as
    segment patterns, and the client builds its paths by string
    concatenation; splitting on '/' connects the two views. */
module Paths {

  /** The segments of `s` between its '/' separators; always at least one. */
  function Split(s: string): (r: seq<string>)
    ensures |r| >= 1
    decreases |s|
  {
    if |s| == 0 then [""]
    else
      var rest := Split(s[1..]);
      if s[0] == '/' then [""] + rest
      else [[s[0]] + rest[0]] + rest[1..]
  }

  /** The segments of `segs` glued back together with '/'. */
  function Join(segs: seq<string>): string
    requires |segs| >= 1
  {
    if |segs| == 1 then segs[0] else segs[0] + "/" + Join(segs[1..])
  }

  /** The segments of an absolute request path: the leading '/' is dropped
      before splitting, so "/v1/auth/token" is ["v1", "auth", "token"]. */
  function Segments(path: string): seq<string> {
    if |path| > 0 && path[0] == '/' then Split(path[1..]) else Split(path)
  }

  /** Splitting and joining are inverse: no character is lost or added. */
  lemma {:induction false} JoinSplit(s: string)
    ensures Join(Split(s)) == s
    decreases |s|
  {
    if |s| > 0 {
      var rest := Split(s[1..]);
      JoinSplit(s[1..]);
      if s[0] == '/' {
        assert Split(s) == [""] + rest;
        assert Split(s)[1..] == rest;
        assert s == [s[0]] + s[1..];
      } else {
        var r := Split(s);
        assert r == [[s[0]] + rest[0]] + rest[1..];
        if |rest| == 1 {
          assert s == [s[0]] + rest[0];
        } else {
          assert r[1..] == rest[1..];
          assert Join(rest) == rest[0] + "/" + Join(rest[1..]);
          assert s == [s[0]] + s[1..];
        }
      }
    }
  }

  /** Segments that contain no '/'. */
  predicate Plain(segs: seq<string>) {
    forall i :: 0 <= i < |segs| ==> '/' !in segs[i]
  }

  /** Joining segments that contain no '/' and splitting the result gives
      the segments back. */
  lemma {:induction false} SplitJoin(segs: seq<string>)
    requires |segs| >= 1 && Plain(segs)
    ensures Split(Join(segs)) == segs
    decreases |segs|
  {
    if |segs| == 1 {
      NoSlash(segs[0]);
    } else {
      SplitJoin(segs[1..]);
      SplitAround(segs[0], Join(segs[1..]));
      NoSlash(segs[0]);
      assert segs == [segs[0]] + segs[1..];
    }
  }

  /** A string without '/' is a single segment, and a string with one
      splits into at least two. */
  lemma {:induction false} NoSlash(s: string)
    ensures '/' !in s <==> Split(s) == [s]
    ensures '/' in s <==> |Split(s)| >= 2
    decreases |s|
  {
    if |s| > 0 {
      NoSlash(s[1..]);
      assert s == [s[0]] + s[1..];
      assert '/' in s <==> s[0] == '/' || '/' in s[1..];
    }
  }

  /** One step of splitting: the first character either ends a segment or
      extends the first segment of the rest. */
  lemma SplitCons(c: char, t: string)
    ensures Split([c] + t) ==
      if c == '/' then [""] + Split(t) else [[c] + Split(t)[0]] + Split(t)[1..]
  {
    assert ([c] + t)[0] == c && ([c] + t)[1..] == t;
  }

  /** Splitting `a + "/" + b` splits `a` and `b` separately. */
  lemma {:induction false} SplitAround(a: string, b: string)
    ensures Split(a + "/" + b) == Split(a) + Split(b)
    decreases |a|
  {
    if |a| == 0 {
      assert a + "/" + b == ['/'] + b;
      SplitCons('/', b);
    } else {
      var t := a[1..] + "/" + b;
      assert a + "/" + b == [a[0]] + t;
      assert a == [a[0]] + a[1..];
      SplitAround(a[1..], b);
      SplitCons(a[0], t);
      SplitCons(a[0], a[1..]);
    }
  }

  /** The absolute path spelling `segs`. */
  function Absolute(segs: seq<string>): string
    requires |segs| >= 1
  {
    "/" + Join(segs)
  }

  /** An absolute path built from plain segments has exactly those
      segments. */
  lemma SegmentsOfAbsolute(segs: seq<string>)
    requires |segs| >= 1 && Plain(segs)
    ensures Segments(Absolute(segs)) == segs
  {
    assert Absolute(segs)[1..] == Join(segs);
    SplitJoin(segs);
  }

  /** Appending `/tail` to an absolute path built from plain segments adds
      the segments of `tail`, whatever '/' it contains. */
  lemma SegmentsBelow(segs: seq<string>, tail: string)
    requires |segs| >= 1 && Plain(segs)
    ensures Segments(Absolute(segs) + "/" + tail) == segs + Split(tail)
  {
    assert (Absolute(segs) + "/" + tail)[1..] == Join(segs) + "/" + tail;
    SplitAround(Join(segs), tail);
    SplitJoin(segs);
  }
}

=== FILE: sdk.dfy ===
/** The client SDK: an immutable record of what a `LubricationClient` holds
    (the base URL of its axios instance and the default Authorization
    header), pure builders for the request each method hands to axios, and
    the way each method turns what axios settles into its return value. */
module Sdk {
  import opened Options
  import opened Json
  import opened Http
  import Paths

  const DefaultBaseUrl := "http://localhost:3000"
  const Bearer := "Bearer "

  /** The constructor's options; `new LubricationClient()` passes neither. */
  datatype ClientOptions = ClientOptions(baseUrl: Option<string>, token: Option<string>)

  /** A client: its base URL and the Authorization header sent with every
      request, absent until a token is set. */
  datatype Client = Client(baseUrl: string, authorization: Option<string>)

  /** `s || fallback` for an optional string: undefined and "" are falsy. */
  function StringOr(s: Option<string>, fallback: string): string {
    if s.Some? && s.value != "" then s.value else fallback
  }

  /** The header value `Bearer ${token}`. */
  function BearerHeader(token: string): string {
    Bearer + token
  }

  /** The token a Bearer header carries, or None for any other header. */
  function BearerToken(header: string): Option<string> {
    if Bearer <= header then Some(header[|Bearer|..]) else None
  }

  /** A Bearer header gives back exactly the token it was built from. */
  lemma BearerRoundTrip(token: string)
    ensures BearerToken(BearerHeader(token)) == Some(token)
    ensures BearerHeader(token) == Bearer + token
  {
    assert Bearer <= Bearer + token;
    assert (Bearer + token)[|Bearer|..] == token;
  }

  /** What every client keeps: a non-empty base URL and, when there is an
      Authorization header, one of the Bearer form. */
  predicate Valid(c: Client) {
    c.baseUrl != "" && (c.authorization.Some? ==> BearerToken(c.authorization.value).Some?)
  }

  /** `new LubricationClient(opts)`. */
  function NewClient(opts: ClientOptions): (c: Client)
    ensures Valid(c)
    ensures opts.baseUrl.Some? && opts.baseUrl.value != "" ==> c.baseUrl == opts.baseUrl.value
    ensures opts.baseUrl.None? || opts.baseUrl.value == "" ==> c.baseUrl == DefaultBaseUrl
    ensures c.authorization.Some? <==> opts.token.Some? && opts.token.value != ""
    ensures c.authorization.Some? ==> BearerToken(c.authorization.value) == opts.token
  {
    var auth := if opts.token.Some? && opts.token.value != "" then Some(BearerHeader(opts.token.value)) else None;
    BearerRoundTrip(Coalesce(opts.token, ""));
    Client(StringOr(opts.baseUrl, DefaultBaseUrl), auth)
  }

  /** `client.withToken(token)`: unlike the constructor it does not test
      the token, so even "" installs the header "Bearer ". */
  function WithToken(c: Client, token: string): (d: Client)
    ensures d.baseUrl == c.baseUrl
    ensures d.authorization.Some? && BearerToken(d.authorization.value) == Some(token)
    ensures Valid(c) ==> Valid(d)
  {
    BearerRoundTrip(token);
    Client(c.baseUrl, Some(BearerHeader(token)))
  }

  /** Of two `withToken` calls the last one wins. */
  lemma WithTokenLastWins(c: Client, first: string, second: string)
    ensures WithToken(WithToken(c, first), second) == WithToken(c, second)
    ensures WithToken(WithToken(c, first), second).baseUrl == c.baseUrl
  {
  }

  /** Constructing with a non-empty token is constructing without one and
      then calling `withToken`; an empty token installs no header. */
  lemma ConstructWithToken(baseUrl: Option<string>, token: string)
    ensures token != "" ==> NewClient(ClientOptions(baseUrl, Some(token))) == WithToken(NewClient(ClientOptions(baseUrl, None)), token)
    ensures token == "" ==> NewClient(ClientOptions(baseUrl, Some(token))) == NewClient(ClientOptions(baseUrl, None))
    ensures NewClient(ClientOptions(baseUrl, None)).authorization.None?
  {
  }

  // ---------------------------------------------------------------------
  // Requests
  // ---------------------------------------------------------------------

  /** A request as a client method hands it to axios: the method, the path
      relative to the base URL, the JSON body if any, the query parameters
      that are defined (axios leaves out undefined ones), and the client's
      base URL and default Authorization header. */
  datatype Outgoing = Outgoing(
    verb: Method,
    baseUrl: string,
    path: string,
    body: Option<Json>,
    params: seq<(string, Number)>,
    authorization: Option<string>)

  /** A request from client `c`. */
  function From(c: Client, verb: Method, path: string, body: Option<Json>, params: seq<(string, Number)>): Outgoing {
    Outgoing(verb, c.baseUrl, path, body, params, c.authorization)
  }

  /** The segments of the token path and of the collection path. */
  const TokenSegments: seq<string> := ["v1", "auth", "token"]
  const FrictionSegments: seq<string> := ["v1", "friction-points"]

  /** "/v1/auth/token" */
  const TokenPath := Paths.Absolute(TokenSegments)
  /** "/v1/friction-points" */
  const FrictionPath := Paths.Absolute(FrictionSegments)

  /** The parameters `listFriction` accepts, each optional. */
  datatype ListParams = ListParams(limit: Option<Number>, offset: Option<Number>)

  /** The default argument of `listFriction`. */
  const DefaultListParams := ListParams(Some(Finite(50.0)), Some(Finite(0.0)))

  /** The query parameters axios sends for a `ListParams` object: its
      defined fields, in declaration order. */
  function ParamList(p: ListParams): (ps: seq<(string, Number)>)
    ensures |ps| == (if p.limit.Some? then 1 else 0) + (if p.offset.Some? then 1 else 0)
    ensures forall i :: 0 <= i < |ps| ==> ps[i].0 == "limit" || ps[i].0 == "offset"
    ensures Lookup(ps, "limit") == p.limit
    ensures Lookup(ps, "offset") == p.offset
  {
    (if p.limit.Some? then [("limit", p.limit.value)] else [])
    + (if p.offset.Some? then [("offset", p.offset.value)] else [])
  }

  /** `obtainToken(apiKey)`: POST of `{ api_key: apiKey }` to the token path. */
  function TokenRequest(c: Client, apiKey: string): (q: Outgoing)
    ensures q.verb == Post && q.path == TokenPath && q.params == []
    ensures q.body.Some? && Field(q.body.value, "api_key") == Some(Str(apiKey))
    ensures Keys(q.body.value.members) == ["api_key"]
  {
    From(c, Post, TokenPath, Some(Obj([("api_key", Str(apiKey))])), [])
  }

  /** `logFriction(payload)`: POST of the payload object, unchanged. */
  function LogRequest(c: Client, payload: seq<(string, Json)>): (q: Outgoing)
    ensures q.verb == Post && q.path == FrictionPath && q.params == []
    ensures q.body == Some(Obj(payload))
  {
    From(c, Post, FrictionPath, Some(Obj(payload)), [])
  }

  /** `listFriction(params?)`: GET of the collection; an omitted argument
      means `{ limit: 50, offset: 0 }`, a given one is sent as it is. */
  function ListRequest(c: Client, params: Option<ListParams>): (q: Outgoing)
    ensures q.verb == Get && q.path == FrictionPath && q.body.None?
    ensures forall i :: 0 <= i < |q.params| ==> q.params[i].0 == "limit" || q.params[i].0 == "offset"
    ensures var p := Coalesce(params, DefaultListParams);
      |q.params| == (if p.limit.Some? then 1 else 0) + (if p.offset.Some? then 1 else 0)
    ensures params.None? ==> Lookup(q.params, "limit") == Some(Finite(50.0))
    ensures params.None? ==> Lookup(q.params, "offset") == Some(Finite(0.0))
    ensures params.Some? ==> Lookup(q.params, "limit") == params.value.limit
    ensures params.Some? ==> Lookup(q.params, "offset") == params.value.offset
  {
    From(c, Get, FrictionPath, None, ParamList(Coalesce(params, DefaultListParams)))
  }

  /** `getFriction(id)`: GET of the collection path with `id` appended
      unescaped. */
  function GetRequest(c: Client, id: string): (q: Outgoing)
    ensures q.verb == Get && q.body.None? && q.params == []
    ensures Paths.Segments(q.path) == ["v1", "friction-points"] + Paths.Split(id)
  {
    GetPathSegments(id);
    From(c, Get, FrictionPath + "/" + id, None, [])
  }

  /** The collection path followed by `/id` splits into the collection's two
      segments and the segments of `id`. */
  lemma GetPathSegments(id: string)
    ensures Paths.Segments(FrictionPath + "/" + id) == ["v1", "friction-points"] + Paths.Split(id)
  {
    assert Paths.Plain(FrictionSegments) by {
      assert '/' !in FrictionSegments[0] && '/' !in FrictionSegments[1];
    }
    Paths.SegmentsBelow(FrictionSegments, id);
  }

  /** The two fixed paths, spelled out. */
  lemma LiteralPaths()
    ensures TokenPath == "/v1/auth/token" && FrictionPath == "/v1/friction-points"
  {
  }

  /** The segments the two fixed paths split into. */
  lemma FixedPathSegments()
    ensures Paths.Segments(TokenPath) == ["v1", "auth", "token"]
    ensures Paths.Segments(FrictionPath) == ["v1", "friction-points"]
  {
    assert Paths.Plain(TokenSegments) by {
      assert '/' !in TokenSegments[0] && '/' !in TokenSegments[1] && '/' !in TokenSegments[2];
    }
    assert Paths.Plain(FrictionSegments) by {
      assert '/' !in FrictionSegments[0] && '/' !in FrictionSegments[1];
    }
    Paths.SegmentsOfAbsolute(TokenSegments);
    Paths.SegmentsOfAbsolute(FrictionSegments);
  }

  /** The argument of `listFriction` decides the query: none sends the
      two defaults, `{}` sends nothing. */
  lemma ListDefaults(c: Client)
    ensures ListRequest(c, None).params == [("limit", Finite(50.0)), ("offset", Finite(0.0))]
    ensures ListRequest(c, Some(ListParams(None, None))).params == []
  {
  }

  /** Every request carries the client's base URL and Authorization header;
      no method changes the client. */
  lemma RequestsCarryClient(c: Client, apiKey: string, payload: seq<(string, Json)>, params: Option<ListParams>, id: string)
    ensures var q := TokenRequest(c, apiKey); q.baseUrl == c.baseUrl && q.authorization == c.authorization
    ensures var q := LogRequest(c, payload); q.baseUrl == c.baseUrl && q.authorization == c.authorization
    ensures var q := ListRequest(c, params); q.baseUrl == c.baseUrl && q.authorization == c.authorization
    ensures var q := GetRequest(c, id); q.baseUrl == c.baseUrl && q.authorization == c.authorization
  {
  }

  // ---------------------------------------------------------------------
  // Responses
  // ---------------------------------------------------------------------

  /** What the transport produced for a request: a response with any
      status, or none at all (refused connection, timeout), described by
      the error's message. */
  datatype Exchange = Answered(response: Response) | Unanswered(message: string)

  /** How the promise of an axios call settles: fulfilled with the
      response, or rejected with an error that carries the response when
      there was one. */
  datatype Settlement = Fulfilled(value: Response) | Rejected(response: Option<Response>, message: string)

  /** The message of the error axios raises for a non-2xx status (axios
      appends the status number, which this model does not render). */
  const StatusErrorMessage := "Request failed with status code"

  /** axios's default `validateStatus`: only 2xx statuses fulfil. */
  predicate Success(status: int) {
    200 <= status < 300
  }

  function Settle(x: Exchange): (s: Settlement)
    ensures s.Fulfilled? <==> x.Answered? && Success(x.response.status)
    ensures s.Rejected? ==> (s.response.Some? <==> x.Answered?)
    ensures x.Answered? ==> (if s.Fulfilled? then s.value else s.response.value) == x.response
  {
    match x
    case Answered(r) => if Success(r.status) then Fulfilled(r) else Rejected(Some(r), StatusErrorMessage)
    case Unanswered(m) => Rejected(None, m)
  }

  /** What a client method returns: the response, or the error object
      when no response arrived. */
  datatype Outcome = Got(response: Response) | Failed(message: string)

  /** `.catch(e => e.response || e)`: a rejection with a response yields that
      response (an object, so truthy); one without yields the error. */
  function Recover(s: Settlement): (o: Outcome)
    ensures o.Failed? <==> s.Rejected? && s.response.None?
    ensures o.Failed? ==> o.message == s.message
    ensures s.Fulfilled? ==> o == Got(s.value)
    ensures s.Rejected? && s.response.Some? ==> o == Got(s.response.value)
  {
    match s
    case Fulfilled(r) => Got(r)
    case Rejected(resp, m) => if resp.Some? then Got(resp.value) else Failed(m)
  }

  /** Sending a request and recovering: a method returns the response
      whatever its status, and fails only when there is no response. */
  function Call(transport: Outgoing -> Exchange, q: Outgoing): (o: Outcome)
    ensures o.Got? <==> transport(q).Answered?
    ensures o.Got? ==> o.response == transport(q).response
    ensures o.Failed? ==> o.message == transport(q).message
  {
    Recover(Settle(transport(q)))
  }

  /** Statuses outside 2xx reach the caller exactly as 2xx ones do. */
  lemma AnyStatusReturned(r: Response)
    ensures Recover(Settle(Answered(r))) == Got(r)
    ensures !Success(r.status) ==> Settle(Answered(r)).Rejected?
  {
  }

  function ObtainToken(c: Client, apiKey: string, transport: Outgoing -> Exchange): (o: Outcome)
    ensures o.Got? <==> transport(TokenRequest(c, apiKey)).Answered?
    ensures o.Got? ==> o.response == transport(TokenRequest(c, apiKey)).response
  {
    Call(transport, TokenRequest(c, apiKey))
  }

  function LogFriction(c: Client, payload: seq<(string, Json)>, transport: Outgoing -> Exchange): (o: Outcome)
    ensures o.Got? <==> transport(LogRequest(c, payload)).Answered?
    ensures o.Got? ==> o.response == transport(LogRequest(c, payload)).response
  {
    Call(transport, LogRequest(c, payload))
  }

  function ListFriction(c: Client, params: Option<ListParams>, transport: Outgoing -> Exchange): (o: Outcome)
    ensures o.Got? <==> transport(ListRequest(c, params)).Answered?
    ensures o.Got? ==> o.response == transport(ListRequest(c, params)).response
  {
    Call(transport, ListRequest(c, params))
  }

  function GetFriction(c: Client, id: string, transport: Outgoing -> Exchange): (o: Outcome)
    ensures o.Got? <==> transport(GetRequest(c, id)).Answered?
    ensures o.Got? ==> o.response == transport(GetRequest(c, id)).response
  {
    Call(transport, GetRequest(c, id))
  }
}

=== FILE: service.dfy ===
/** The scaffold service: a fixed route table whose handlers answer with
    deterministic JSON envelopes. A NotImplemented envelope (status 501)
    describes how an unbuilt route must eventually behave, the list route
    answers an empty page (status 200), and the single-record route and every
    unmatched request answer NotFound (status 404). */
module Service {
  import opened Options
  import opened Json
  import opened Http

  /** An inbound request after body parsing: the path as its segments, the
      query string as a map from parameter name to its (single) value, and
      the parsed body, absent when the request carried none. */
  datatype Request = Request(verb: Method, path: seq<string>, query: map<string, string>, body: Option<Json>)

  const OpenApi := "/openapi.yaml"

  const DefaultHints: seq<string> := [
    "Add persistence (sqlite/postgres) and configuration via DB_CONN",
    "Respect scoped tokens and rate limits as documented in API.md"
  ]

  const TokenFeature := "POST /v1/auth/token"
  const TokenHints: seq<string> := [
    "Return a scoped token (JWT or opaque) with scopes like friction:read, friction:write",
    "Example response: { token: '<jwt>', scope: 'friction:write', expires_in: 3600 }"
  ]

  const CreateFeature := "POST /v1/friction-points"
  const CreateHints: seq<string> := [
    "Validate required fields: summary, details, location, agent",
    "Persist to DB and return a generated id and status"
  ]

  const HealthMessage := "Design-time scaffold: implement service to proceed."
  const ListNote := "No data: this is a design-time scaffold. Implement storage and listing logic to return actual friction points."
  const GetAction := "Implement GET /v1/friction-points/{id} to retrieve persisted records"
  const FallbackMessage := "Endpoint not found in scaffold."

  /** The keys of the NotImplemented envelope, in the order they are written. */
  const NotImplementedKeys: seq<string> := ["error_code", "message", "guidance", "reminder"]

  /** The fields echoed back by the creation route; `details` is not among them. */
  const EchoedKeys: seq<string> := ["summary", "location", "agent"]

  // ---------------------------------------------------------------------
  // Envelopes
  // ---------------------------------------------------------------------

  /** The message of a NotImplemented envelope for `feature`. */
  function NotImplementedMessage(feature: string): string {
    feature + " is not implemented in this design-time scaffold."
  }

  /** The suggested action of a NotImplemented envelope for `feature`. */
  function ImplementAction(feature: string): string {
    "Implement the " + feature + " endpoint according to the OpenAPI specification and persist data to a backing store."
  }

  /** The shape every NotImplemented envelope has, stated field by field. */
  predicate IsNotImplemented(j: Json, feature: string, hints: seq<string>) {
    && Field(j, "error_code") == Some(Str("NotImplemented"))
    && Field(j, "message") == Some(Str(NotImplementedMessage(feature)))
    && Field(j, "reminder") == Some(Bool(true))
    && Field(j, "guidance").Some?
    && var g := Field(j, "guidance").value;
    && Field(g, "openapi") == Some(Str("/openapi.yaml"))
    && Field(g, "suggested_action") == Some(Str(ImplementAction(feature)))
    && Field(g, "hints") == Some(Strings(hints))
  }

  /** The shape of the single-record NotFound envelope: its message names
      the requested id and its guidance carries no hints. */
  predicate IsRecordNotFound(j: Json, id: string) {
    && Field(j, "error_code") == Some(Str("NotFound"))
    && Field(j, "message").Some?
    && Field(j, "message").value.Str?
    && Contains(Field(j, "message").value.s, id)
    && Field(j, "guidance").Some?
    && var g := Field(j, "guidance").value;
    && Field(g, "openapi") == Some(Str("/openapi.yaml"))
    && Field(g, "suggested_action").Some?
    && Field(g, "hints").None?
  }

  /** `sub` occurs somewhere in `s`. */
  predicate Contains(s: string, sub: string) {
    exists i :: 0 <= i <= |s| && sub <= s[i..]
  }

  /** `hints || [...]`: every array is truthy in JavaScript, so a supplied
      list is kept even when it is empty. */
  function Hints(hints: Option<seq<string>>): seq<string> {
    Coalesce(hints, DefaultHints)
  }

  /** The guidance block of a NotImplemented envelope. */
  function NotImplementedGuidance(feature: string, hints: seq<string>): (g: Json)
    ensures g.Obj? && DistinctKeys(g.members)
    ensures Field(g, "openapi") == Some(Str("/openapi.yaml"))
    ensures Field(g, "suggested_action") == Some(Str(ImplementAction(feature)))
    ensures Field(g, "hints") == Some(Strings(hints))
  {
    var members := [
      ("openapi", Str(OpenApi)),
      ("suggested_action", Str(ImplementAction(feature))),
      ("hints", Strings(hints))
    ];
    LookupMember(members, 0);
    LookupMember(members, 1);
    LookupMember(members, 2);
    Obj(members)
  }

  function NotImplementedResponse(feature: string, hints: Option<seq<string>>): (r: Json)
    ensures r.Obj? && DistinctKeys(r.members)
    ensures Keys(r.members) == NotImplementedKeys
    ensures IsNotImplemented(r, feature, Hints(hints))
  {
    var hs := Hints(hints);
    NotImplementedMembersKeys(feature, hs);
    NotImplementedMembersShape(feature, hs);
    Obj(NotImplementedMembers(feature, hs))
  }

  /** Omitted hints become the fixed two-item default list; supplied hints,
      even an empty list (an array is truthy), are used unchanged. */
  lemma HintsRule(feature: string, hints: Option<seq<string>>)
    ensures hints.None? ==> IsNotImplemented(NotImplementedResponse(feature, hints), feature, DefaultHints)
    ensures hints.Some? ==> IsNotImplemented(NotImplementedResponse(feature, hints), feature, hints.value)
    ensures |DefaultHints| == 2
  {
    var r := NotImplementedResponse(feature, hints);
    if hints.None? {
      assert Hints(hints) == DefaultHints;
    } else {
      assert Hints(hints) == hints.value;
    }
  }

  /** The object literal built by `notImplementedResponse`, once the hints
      default has been applied. */
  function NotImplementedMembers(feature: string, hs: seq<string>): seq<(string, Json)> {
    [
      ("error_code", Str("NotImplemented")),
      ("message", Str(NotImplementedMessage(feature))),
      ("guidance", NotImplementedGuidance(feature, hs)),
      ("reminder", Bool(true))
    ]
  }

  lemma NotImplementedMembersKeys(feature: string, hs: seq<string>)
    ensures DistinctKeys(NotImplementedMembers(feature, hs))
    ensures Keys(NotImplementedMembers(feature, hs)) == NotImplementedKeys
  {
    var ks := Keys(NotImplementedMembers(feature, hs));
    assert |ks| == 4 && ks[0] == "error_code" && ks[1] == "message" && ks[2] == "guidance" && ks[3] == "reminder";
  }

  lemma NotImplementedMembersShape(feature: string, hs: seq<string>)
    ensures IsNotImplemented(Obj(NotImplementedMembers(feature, hs)), feature, hs)
  {
    var ms := NotImplementedMembers(feature, hs);
    NotImplementedMembersKeys(feature, hs);
    LookupMember(ms, 0);
    LookupMember(ms, 1);
    LookupMember(ms, 2);
    LookupMember(ms, 3);
  }

  /** The generic 404 body of the fallback handler: a NotFound code and a
      fixed message, with no guidance block. */
  function FallbackEnvelope(): (r: Json)
    ensures r.Obj? && DistinctKeys(r.members)
    ensures Field(r, "error_code") == Some(Str("NotFound"))
    ensures Field(r, "message") == Some(Str("Endpoint not found in scaffold."))
    ensures Field(r, "guidance").None?
  {
    var members := [("error_code", Str("NotFound")), ("message", Str(FallbackMessage))];
    LookupMember(members, 0);
    LookupMember(members, 1);
    Obj(members)
  }

  function HealthEnvelope(): (r: Json)
    ensures r.Obj? && DistinctKeys(r.members)
    ensures Field(r, "status") == Some(Str("ok"))
    ensures Field(r, "implemented") == Some(Bool(false))
    ensures Field(r, "message") == Some(Str(HealthMessage))
    ensures Field(r, "error_code").None?
  {
    var members := [("status", Str("ok")), ("implemented", Bool(false)), ("message", Str(HealthMessage))];
    LookupMember(members, 0);
    LookupMember(members, 1);
    LookupMember(members, 2);
    Obj(members)
  }

  /** The single-record 404 body; its message interpolates `id` verbatim. */
  function RecordNotFoundEnvelope(id: string): (r: Json)
    ensures r.Obj? && DistinctKeys(r.members)
    ensures IsRecordNotFound(r, id)
    ensures Field(Field(r, "guidance").value, "suggested_action") == Some(Str(GetAction))
    ensures Field(r, "message") == Some(Str("Friction point " + id + " not found (design-time scaffold)."))
  {
    var message := "Friction point " + id + " not found (design-time scaffold).";
    var guidance := [("openapi", Str(OpenApi)), ("suggested_action", Str(GetAction))];
    var members := [("error_code", Str("NotFound")), ("message", Str(message)), ("guidance", Obj(guidance))];
    LookupMember(guidance, 0);
    LookupMember(guidance, 1);
    LookupMember(members, 0);
    LookupMember(members, 1);
    LookupMember(members, 2);
    assert id <= message[|"Friction point "|..];
    Obj(members)
  }

  /** The empty page of the list route: no records, a zero total, and the
      requested window echoed in `meta`. */
  function ListEnvelope(limit: Number, offset: Number): (r: Json)
    ensures r.Obj? && DistinctKeys(r.members)
    ensures Field(r, "data") == Some(Arr([]))
    ensures Field(r, "error_code").None?
    ensures Field(r, "meta").Some?
    ensures Field(Field(r, "meta").value, "total") == Some(Int(0))
    ensures Field(Field(r, "meta").value, "limit") == Some(Num(limit))
    ensures Field(Field(r, "meta").value, "offset") == Some(Num(offset))
    ensures Field(r, "note") == Some(Str(ListNote))
  {
    var meta := [("total", Int(0)), ("limit", Num(limit)), ("offset", Num(offset))];
    var members := [("data", Arr([])), ("meta", Obj(meta)), ("note", Str(ListNote))];
    LookupMember(meta, 0);
    LookupMember(meta, 1);
    LookupMember(meta, 2);
    LookupMember(members, 0);
    LookupMember(members, 1);
    LookupMember(members, 2);
    Obj(members)
  }

  /** `body.key || null` after `req.body || {}`. */
  function Echo(body: Option<Json>, key: string): (r: Json)
    ensures r == Null || Truthy(r)
    ensures Truthy(r) <==> body.Some? && Field(body.value, key).Some? && Truthy(Field(body.value, key).value)
    ensures Truthy(r) ==> Field(body.value, key) == Some(r)
  {
    Or(Field(Or(body, Obj([])), key), Null)
  }

  /** The `received` object of the creation route. */
  function Received(body: Option<Json>): (r: Json)
    ensures r.Obj? && DistinctKeys(r.members)
    ensures Keys(r.members) == EchoedKeys
    ensures forall k :: k in EchoedKeys ==> Field(r, k) == Some(Echo(body, k))
  {
    var members := [("summary", Echo(body, "summary")), ("location", Echo(body, "location")), ("agent", Echo(body, "agent"))];
    LookupMember(members, 0);
    LookupMember(members, 1);
    LookupMember(members, 2);
    assert Keys(members) == EchoedKeys by {
      var ks := Keys(members);
      assert |ks| == 3 && ks[0] == "summary" && ks[1] == "location" && ks[2] == "agent";
    }
    Obj(members)
  }

  /** `{...notImplementedResponse(...), received: {...}}` of the creation route. */
  function CreateEnvelope(body: Option<Json>): Json {
    Obj(NotImplementedResponse(CreateFeature, Some(CreateHints)).members + [("received", Received(body))])
  }

  /** The creation route's envelope is a NotImplemented envelope for its
      feature with one more key, `received`, holding the echo of the body. */
  lemma CreateEnvelopeShape(body: Option<Json>)
    ensures CreateEnvelope(body).Obj? && DistinctKeys(CreateEnvelope(body).members)
    ensures Keys(CreateEnvelope(body).members) == NotImplementedKeys + ["received"]
    ensures IsNotImplemented(CreateEnvelope(body), CreateFeature, CreateHints)
    ensures Field(CreateEnvelope(body), "received") == Some(Received(body))
  {
    var base := NotImplementedResponse(CreateFeature, Some(CreateHints));
    SpreadKeepsShape(base, [("received", Received(body))], CreateFeature, CreateHints);
    ReceivedIsNew();
    SpreadAddsKey(base.members, "received", Received(body));
  }

  lemma ReceivedIsNew()
    ensures "received" !in NotImplementedKeys
  {
  }

  /** Spreading a NotImplemented envelope into a larger object literal keeps
      every one of its fields. */
  lemma SpreadKeepsShape(base: Json, extra: seq<(string, Json)>, feature: string, hints: seq<string>)
    requires base.Obj? && IsNotImplemented(base, feature, hints)
    ensures IsNotImplemented(Obj(base.members + extra), feature, hints)
  {
    LookupAppend(base.members, extra, "error_code");
    LookupAppend(base.members, extra, "message");
    LookupAppend(base.members, extra, "reminder");
    LookupAppend(base.members, extra, "guidance");
  }

  /** Adding a key the NotImplemented envelope does not have keeps the keys
      distinct and makes the new value reachable under that key. */
  lemma SpreadAddsKey(ms: seq<(string, Json)>, key: string, v: Json)
    requires DistinctKeys(ms) && Keys(ms) == NotImplementedKeys
    requires key !in NotImplementedKeys
    ensures DistinctKeys(ms + [(key, v)])
    ensures Keys(ms + [(key, v)]) == NotImplementedKeys + [key]
    ensures Lookup(ms + [(key, v)], key) == Some(v)
  {
    KeysAppend(ms, [(key, v)]);
    assert Keys([(key, v)]) == [key];
    forall i | 0 <= i < |ms| ensures ms[i].0 != key {
      assert ms[i].0 == Keys(ms)[i];
    }
    DistinctKeysAppend(ms, [(key, v)]);
    LookupAppend(ms, [(key, v)], key);
    LookupAbsent(ms, key);
  }

  /** `Number(req.query[key] ?? fallback)`, with `Number()` of a query string
      supplied by the caller. */
  function QueryNumber(query: map<string, string>, key: string, fallback: int, toNumber: string -> Number): (n: Number)
    ensures key in query ==> n == toNumber(query[key])
    ensures key !in query ==> n.Finite? && n.value == fallback as real
  {
    if key in query then toNumber(query[key]) else Finite(fallback as real)
  }

  // ---------------------------------------------------------------------
  // Route table
  // ---------------------------------------------------------------------

  /** A path pattern segment: literal text, or a named parameter that
      matches any one non-empty segment. */
  datatype Segment = Lit(text: string) | Param(name: string)

  datatype Handler = HealthCheck | IssueToken | CreateFriction | ListFriction | GetFriction

  datatype Route = Route(verb: Method, pattern: seq<Segment>, handler: Handler)

  /** The routes in registration order; the fallback answers whatever none
      of them matches. */
  const Routes: seq<Route> := [
    Route(Get, [Lit("health")], HealthCheck),
    Route(Post, [Lit("v1"), Lit("auth"), Lit("token")], IssueToken),
    Route(Post, [Lit("v1"), Lit("friction-points")], CreateFriction),
    Route(Get, [Lit("v1"), Lit("friction-points")], ListFriction),
    Route(Get, [Lit("v1"), Lit("friction-points"), Param("id")], GetFriction)
  ]

  predicate SegmentMatches(p: Segment, s: string) {
    if p.Lit? then s == p.text else s != ""
  }

  predicate PatternMatches(pattern: seq<Segment>, path: seq<string>) {
    && |pattern| == |path|
    && (|pattern| == 0 || (SegmentMatches(pattern[0], path[0]) && PatternMatches(pattern[1..], path[1..])))
  }

  predicate Matches(r: Route, m: Method, path: seq<string>) {
    r.verb == m && PatternMatches(r.pattern, path)
  }

  /** The values bound to the pattern's parameters (`req.params`). */
  function Bind(pattern: seq<Segment>, path: seq<string>): map<string, string>
    requires |pattern| == |path|
  {
    if |pattern| == 0 then map[]
    else
      var rest := Bind(pattern[1..], path[1..]);
      if pattern[0].Param? then rest[pattern[0].name := path[0]] else rest
  }

  /** The index of the first route from `from` on that matches, as the
      router tries routes in registration order. */
  function FirstMatch(routes: seq<Route>, m: Method, path: seq<string>, from: nat): (r: Option<nat>)
    requires from <= |routes|
    ensures r.Some? ==> from <= r.value < |routes| && Matches(routes[r.value], m, path)
    ensures r.Some? ==> forall j :: from <= j < r.value ==> !Matches(routes[j], m, path)
    ensures r.None? ==> forall j :: from <= j < |routes| ==> !Matches(routes[j], m, path)
    decreases |routes| - from
  {
    if from == |routes| then None
    else if Matches(routes[from], m, path) then Some(from)
    else FirstMatch(routes, m, path, from + 1)
  }

  /** A response whose status and error code agree: 200 carries no error
      code, 404 carries NotFound and 501 carries NotImplemented. */
  predicate Coherent(r: Response) {
    && (r.status == 200 || r.status == 404 || r.status == 501)
    && r.body.Obj? && DistinctKeys(r.body.members)
    && (r.status == 200 <==> Field(r.body, "error_code").None?)
    && (r.status == 404 <==> Field(r.body, "error_code") == Some(Str("NotFound")))
    && (r.status == 501 <==> Field(r.body, "error_code") == Some(Str("NotImplemented")))
  }

  function Handle(h: Handler, params: map<string, string>, req: Request, toNumber: string -> Number): (r: Response)
    ensures Coherent(r)
  {
    match h
    case HealthCheck =>
      HealthCoherent();
      Response(200, HealthEnvelope())
    case IssueToken =>
      NotImplementedCoherent(TokenFeature, Some(TokenHints));
      Response(501, NotImplementedResponse(TokenFeature, Some(TokenHints)))
    case CreateFriction =>
      CreateCoherent(req.body);
      Response(501, CreateEnvelope(req.body))
    case ListFriction =>
      var limit := QueryNumber(req.query, "limit", 50, toNumber);
      var offset := QueryNumber(req.query, "offset", 0, toNumber);
      ListCoherent(limit, offset);
      Response(200, ListEnvelope(limit, offset))
    case GetFriction =>
      // a template literal renders a missing parameter as "undefined"
      var id := if "id" in params then params["id"] else "undefined";
      RecordNotFoundCoherent(id);
      Response(404, RecordNotFoundEnvelope(id))
  }

  lemma HealthCoherent()
    ensures Coherent(Response(200, HealthEnvelope()))
  {
  }

  lemma NotImplementedCoherent(feature: string, hints: Option<seq<string>>)
    ensures Coherent(Response(501, NotImplementedResponse(feature, hints)))
  {
  }

  lemma CreateCoherent(body: Option<Json>)
    ensures Coherent(Response(501, CreateEnvelope(body)))
  {
    CreateEnvelopeShape(body);
  }

  lemma ListCoherent(limit: Number, offset: Number)
    ensures Coherent(Response(200, ListEnvelope(limit, offset)))
  {
  }

  lemma RecordNotFoundCoherent(id: string)
    ensures Coherent(Response(404, RecordNotFoundEnvelope(id)))
  {
  }

  lemma FallbackCoherent()
    ensures Coherent(Response(404, FallbackEnvelope()))
  {
  }

  /** The whole service: the first matching route's handler, or the generic
      404. `toNumber` is JavaScript's `Number()` applied to a query string. */
  function Dispatch(toNumber: string -> Number, req: Request): (r: Response)
    ensures r.status == 200 || r.status == 404 || r.status == 501
    ensures r.body.Obj? && DistinctKeys(r.body.members)
    ensures r.status == 200 <==> Field(r.body, "error_code").None?
    ensures r.status == 404 <==> Field(r.body, "error_code") == Some(Str("NotFound"))
    ensures r.status == 501 <==> Field(r.body, "error_code") == Some(Str("NotImplemented"))
  {
    match FirstMatch(Routes, req.verb, req.path, 0)
    case None =>
      FallbackCoherent();
      Response(404, FallbackEnvelope())
    case Some(i) => Handle(Routes[i].handler, Bind(Routes[i].pattern, req.path), req, toNumber)
  }

  /** The server over a run of requests. The handlers keep no state
      between requests, and the model makes that so by construction: each
      response is `Dispatch` of its own request, and equal requests anywhere
      in the run get equal responses as a consequence. */
  method Serve(toNumber: string -> Number, reqs: seq<Request>) returns (rs: seq<Response>)
    ensures |rs| == |reqs|
    ensures forall i :: 0 <= i < |reqs| ==> rs[i] == Dispatch(toNumber, reqs[i])
    ensures forall i, j :: 0 <= i < |reqs| && 0 <= j < |reqs| && reqs[i] == reqs[j] ==> rs[i] == rs[j]
  {
    rs := [];
    var k := 0;
    while k < |reqs|
      invariant 0 <= k <= |reqs| && |rs| == k
      invariant forall i :: 0 <= i < k ==> rs[i] == Dispatch(toNumber, reqs[i])
    {
      rs := rs + [Dispatch(toNumber, reqs[k])];
      k := k + 1;
    }
  }
}

=== FILE: service_laws.dfy ===
/** What the scaffold service promises, route by route: which requests each
    entry of the table accepts, that no request is accepted by two entries,
    and the exact envelope every route answers with. */
module ServiceLaws {
  import opened Options
  import opened Json
  import opened Http
  import opened Service

  /** The requests the route table accepts, written out by hand. */
  predicate InTable(m: Method, path: seq<string>) {
    || (m == Get && path == ["health"])
    || (m == Post && path == ["v1", "auth", "token"])
    || (m == Post && path == ["v1", "friction-points"])
    || (m == Get && path == ["v1", "friction-points"])
    || (m == Get && IsRecordPath(path))
  }

  /** `/v1/friction-points/:id` with a non-empty id. */
  predicate IsRecordPath(path: seq<string>) {
    |path| == 3 && path[0] == "v1" && path[1] == "friction-points" && path[2] != ""
  }

  /** Each table entry accepts exactly the requests written out for it. */
  lemma {:induction false} RouteConditions(m: Method, path: seq<string>)
    ensures Matches(Routes[0], m, path) <==> m == Get && path == ["health"]
    ensures Matches(Routes[1], m, path) <==> m == Post && path == ["v1", "auth", "token"]
    ensures Matches(Routes[2], m, path) <==> m == Post && path == ["v1", "friction-points"]
    ensures Matches(Routes[3], m, path) <==> m == Get && path == ["v1", "friction-points"]
    ensures Matches(Routes[4], m, path) <==> m == Get && IsRecordPath(path)
  {
    assert Routes[0].pattern == Lits(["health"]);
    assert Routes[1].pattern == Lits(["v1", "auth", "token"]);
    assert Routes[2].pattern == Lits(["v1", "friction-points"]);
    assert Routes[3].pattern == Lits(["v1", "friction-points"]);
    LiteralPattern(["health"], path);
    LiteralPattern(["v1", "auth", "token"], path);
    LiteralPattern(["v1", "friction-points"], path);
    RecordPattern(path);
  }

  /** A pattern of literal segments accepts exactly the path spelling them. */
  lemma {:induction false} LiteralPattern(texts: seq<string>, path: seq<string>)
    ensures PatternMatches(Lits(texts), path) <==> path == texts
    decreases |texts|
  {
    if |texts| > 0 && |path| > 0 {
      assert Lits(texts)[1..] == Lits(texts[1..]);
      LiteralPattern(texts[1..], path[1..]);
      if path[0] == texts[0] && path[1..] == texts[1..] {
        assert path == [path[0]] + path[1..] && texts == [texts[0]] + texts[1..];
      }
    }
  }

  function Lits(texts: seq<string>): (p: seq<Segment>)
    ensures |p| == |texts|
    ensures forall i :: 0 <= i < |texts| ==> p[i] == Lit(texts[i])
  {
    seq(|texts|, i requires 0 <= i < |texts| => Lit(texts[i]))
  }

  lemma RecordPattern(path: seq<string>)
    ensures PatternMatches(Routes[4].pattern, path) <==> IsRecordPath(path)
    ensures IsRecordPath(path) ==> Bind(Routes[4].pattern, path) == map["id" := path[2]]
  {
    var p := Routes[4].pattern;
    if |path| == 3 {
      var p1, path1 := p[1..], path[1..];
      var p2, path2 := p1[1..], path1[1..];
      var p3, path3 := p2[1..], path2[1..];
      assert p1 == [Lit("friction-points"), Param("id")] && path1[0] == path[1];
      assert p2 == [Param("id")] && path2[0] == path[2];
      assert |p3| == 0 && |path3| == 0;
      assert PatternMatches(p3, path3) && Bind(p3, path3) == map[];
      assert PatternMatches(p2, path2) <==> path[2] != "";
      assert Bind(p2, path2) == map["id" := path[2]];
      assert PatternMatches(p1, path1) <==> path[1] == "friction-points" && path[2] != "";
      assert Bind(p1, path1) == map["id" := path[2]];
    }
  }

  /** The response of a request some entry accepts is that entry's handler's. */
  lemma DispatchRoute(toNumber: string -> Number, req: Request, i: int)
    requires 0 <= i < |Routes| && Matches(Routes[i], req.verb, req.path)
    ensures Dispatch(toNumber, req) == Handle(Routes[i].handler, Bind(Routes[i].pattern, req.path), req, toNumber)
  {
    FirstMatchFinds(req.verb, req.path, i);
  }

  lemma HandleCreate(params: map<string, string>, req: Request, toNumber: string -> Number)
    ensures Routes[2].handler == CreateFriction
    ensures Handle(CreateFriction, params, req, toNumber) == Response(501, CreateEnvelope(req.body))
  {
  }

  lemma HandleToken(params: map<string, string>, req: Request, toNumber: string -> Number)
    ensures Routes[1].handler == IssueToken
    ensures Handle(IssueToken, params, req, toNumber) == Response(501, NotImplementedResponse(TokenFeature, Some(TokenHints)))
  {
  }

  lemma HandleGet(params: map<string, string>, req: Request, toNumber: string -> Number)
    requires "id" in params
    ensures Routes[4].handler == GetFriction
    ensures Handle(GetFriction, params, req, toNumber) == Response(404, RecordNotFoundEnvelope(params["id"]))
  {
  }

  /** No request is accepted by two entries, so the order in which the
      routes are registered does not change which handler answers. */
  lemma RoutesUnambiguous(m: Method, path: seq<string>, i: int, j: int)
    requires 0 <= i < j < |Routes|
    ensures !(Matches(Routes[i], m, path) && Matches(Routes[j], m, path))
  {
    RouteConditions(m, path);
  }

  /** The router picks the one entry that accepts the request. */
  lemma FirstMatchFinds(m: Method, path: seq<string>, i: int)
    requires 0 <= i < |Routes| && Matches(Routes[i], m, path)
    ensures FirstMatch(Routes, m, path, 0) == Some(i)
  {
    var r := FirstMatch(Routes, m, path, 0);
    assert r.Some?;
    if r.value < i {
      RoutesUnambiguous(m, path, r.value, i);
    }
  }

  /** A request accepted by no entry reaches the fallback. */
  lemma FirstMatchMisses(m: Method, path: seq<string>)
    requires !InTable(m, path)
    ensures FirstMatch(Routes, m, path, 0).None?
  {
    RouteConditions(m, path);
  }

  /** `GET /health` answers 200 with status "ok" and implemented false. */
  lemma DispatchHealth(toNumber: string -> Number, req: Request)
    requires req.verb == Get && req.path == ["health"]
    ensures Dispatch(toNumber, req).status == 200
    ensures Field(Dispatch(toNumber, req).body, "status") == Some(Str("ok"))
    ensures Field(Dispatch(toNumber, req).body, "implemented") == Some(Bool(false))
  {
    RouteConditions(req.verb, req.path);
    DispatchRoute(toNumber, req, 0);
  }

  /** `POST /v1/auth/token` answers 501 with the token NotImplemented
      envelope, whatever the body and query. */
  lemma DispatchIssueToken(toNumber: string -> Number, req: Request)
    requires req.verb == Post && req.path == ["v1", "auth", "token"]
    ensures Dispatch(toNumber, req) == Response(501, NotImplementedResponse("POST /v1/auth/token", Some(TokenHints)))
    ensures IsNotImplemented(Dispatch(toNumber, req).body, "POST /v1/auth/token", TokenHints)
  {
    assert Dispatch(toNumber, req) == Response(501, NotImplementedResponse(TokenFeature, Some(TokenHints))) by {
      RouteConditions(req.verb, req.path);
      DispatchRoute(toNumber, req, 1);
      HandleToken(Bind(Routes[1].pattern, req.path), req, toNumber);
    }
    HintsRule(TokenFeature, Some(TokenHints));
  }

  /** `POST /v1/friction-points` answers 501 with the creation NotImplemented
      envelope plus a `received` object holding exactly `summary`,
      `location` and `agent`, each echoed from the body. */
  lemma DispatchCreateFriction(toNumber: string -> Number, req: Request)
    requires req.verb == Post && req.path == ["v1", "friction-points"]
    ensures Dispatch(toNumber, req).status == 501
    ensures IsNotImplemented(Dispatch(toNumber, req).body, "POST /v1/friction-points", CreateHints)
    ensures Keys(Dispatch(toNumber, req).body.members) == NotImplementedKeys + ["received"]
    ensures Field(Dispatch(toNumber, req).body, "received") == Some(Received(req.body))
    ensures Keys(Received(req.body).members) == ["summary", "location", "agent"]
    ensures forall k :: k in EchoedKeys ==> Field(Received(req.body), k) == Some(Echo(req.body, k))
  {
    assert Dispatch(toNumber, req) == Response(501, CreateEnvelope(req.body)) by {
      RouteConditions(req.verb, req.path);
      DispatchRoute(toNumber, req, 2);
      HandleCreate(Bind(Routes[2].pattern, req.path), req, toNumber);
    }
    CreateEnvelopeShape(req.body);
  }

  /** The echo rule of the creation route: a missing body behaves as `{}`,
      a field that is absent or falsy (`""`, `0`, `NaN`, `false`, `null`)
      becomes `null`, and a truthy field is echoed unchanged. */
  lemma EchoRule(body: Option<Json>, key: string)
    ensures body.None? ==> Echo(body, key) == Null
    ensures body.Some? && !body.value.Obj? ==> Echo(body, key) == Null
    ensures body.Some? && body.value.Obj? ==>
      var v := Lookup(body.value.members, key);
      && (Echo(body, key) == Null <==> v.None? || !Truthy(v.value))
      && (v.Some? && Truthy(v.value) ==> Echo(body, key) == v.value)
  {
  }

  /** `GET /v1/friction-points` answers 200 with an empty page whose total
      is zero; `limit` and `offset` are the converted query values, 50 and 0
      when absent. */
  lemma DispatchListFriction(toNumber: string -> Number, req: Request)
    requires req.verb == Get && req.path == ["v1", "friction-points"]
    ensures Dispatch(toNumber, req).status == 200
    ensures Field(Dispatch(toNumber, req).body, "data") == Some(Arr([]))
    ensures Field(Dispatch(toNumber, req).body, "meta").Some?
    ensures Field(Field(Dispatch(toNumber, req).body, "meta").value, "total") == Some(Int(0))
    ensures Field(Field(Dispatch(toNumber, req).body, "meta").value, "limit")
         == Some(Num(if "limit" in req.query then toNumber(req.query["limit"]) else Finite(50.0)))
    ensures Field(Field(Dispatch(toNumber, req).body, "meta").value, "offset")
         == Some(Num(if "offset" in req.query then toNumber(req.query["offset"]) else Finite(0.0)))
  {
    RouteConditions(req.verb, req.path);
    DispatchRoute(toNumber, req, 3);
  }

  /** `GET /v1/friction-points/:id` answers 404 with a NotFound envelope
      naming the id and carrying guidance without hints. */
  lemma DispatchGetFriction(toNumber: string -> Number, req: Request)
    requires req.verb == Get && IsRecordPath(req.path)
    ensures Dispatch(toNumber, req).status == 404
    ensures IsRecordNotFound(Dispatch(toNumber, req).body, req.path[2])
    ensures Field(Dispatch(toNumber, req).body, "message")
         == Some(Str("Friction point " + req.path[2] + " not found (design-time scaffold)."))
  {
    assert Dispatch(toNumber, req) == Response(404, RecordNotFoundEnvelope(req.path[2])) by {
      RouteConditions(req.verb, req.path);
      RecordPattern(req.path);
      DispatchRoute(toNumber, req, 4);
      HandleGet(Bind(Routes[4].pattern, req.path), req, toNumber);
    }
  }

  /** Exactly the requests outside the table get the generic 404, whose body
      has no guidance block. */
  lemma DispatchFallback(toNumber: string -> Number, req: Request)
    ensures !InTable(req.verb, req.path) <==> Dispatch(toNumber, req) == Response(404, FallbackEnvelope())
    ensures !InTable(req.verb, req.path) ==> Field(Dispatch(toNumber, req).body, "guidance").None?
  {
    RouteConditions(req.verb, req.path);
    if !InTable(req.verb, req.path) {
      FirstMatchMisses(req.verb, req.path);
    } else if req.verb == Get && IsRecordPath(req.path) {
      DispatchGetFriction(toNumber, req);
      assert Field(FallbackEnvelope(), "guidance").None?;
    } else {
      var i :| 0 <= i < 4 && Matches(Routes[i], req.verb, req.path);
      DispatchRoute(toNumber, req, i);
    }
  }

  /** Method and path together choose the route: a POST below a record path
      and a GET of the token path both fall through to the generic 404. */
  lemma FallbackExamples(toNumber: string -> Number, body: Option<Json>, query: map<string, string>)
    ensures Dispatch(toNumber, Request(Post, ["v1", "friction-points", "x"], query, body)) == Response(404, FallbackEnvelope())
    ensures Dispatch(toNumber, Request(Get, ["v1", "auth", "token"], query, body)) == Response(404, FallbackEnvelope())
    ensures Dispatch(toNumber, Request(Get, ["v1", "unknown"], query, body)) == Response(404, FallbackEnvelope())
  {
    DispatchFallback(toNumber, Request(Post, ["v1", "friction-points", "x"], query, body));
    DispatchFallback(toNumber, Request(Get, ["v1", "auth", "token"], query, body));
    DispatchFallback(toNumber, Request(Get, ["v1", "unknown"], query, body));
  }
}
